=== FILE: README.md ===
# RecordListView in Dafny

A model of `RecordListView`, the Lightning web component that shows a
configurable, sortable, searchable and infinitely scrolling list of Salesforce
records. The model covers these parts of the component:

- choosing the list configuration from the page URL;
- deriving the list settings from the configuration;
- parsing the configured sort specification;
- building the columns;
- merging a column-header click into the multi-column sort and refreshing the column sort icons;
- loading pages of records and turning each record into a row: cells, Name fallback, display formatting, row key and number, mobile card layout;
- the search, refresh and card-expand handlers;
- the two template getters.

The two remote calls (`getConfig`, `getRecords`) are not executed: their
answers are parameters of the handlers that await them.

Modules, one file each:

| file | module | contents |
|---|---|---|
| `option.dfy` | `Optional` | `Option`, a generic `Map` over sequences, `Somes` |
| `text.dfy` | `Strings` | split/join, trim, words, ASCII case, substring search, decimal text |
| `json.dfy` | `Json` | record values and the dotted-path lookup `getFieldValue` |
| `sorting.dfy` | `Sorting` | `parseSortBy`, the click merge of `handleSort`, `getSortIconForField` |
| `config.dfy` | `Settings` | the configuration record and the settings `loadConfig` derives |
| `columns.dfy` | `Columns` | `formatLabel`, `isLinkField`, the columns of `setupColumns` |
| `url.dfy` | `Url` | `extractConfigNameFromUrl`, as written and as intended |
| `display.dfy` | `Display` | `formatPhone`, `formatDisplayValue`, cells, rows, `setupMobileFields`, `itemsDisplayText` |
| `listview.dfy` | `ListView` | the class `RecordListView` and its handlers |

The component state is the class `ListView.RecordListView`. Its handlers are
methods with field-level `modifies` frames, and each is proved against
specification functions. Every handler preserves the invariant
`Valid()`, which says:

- the displayed records are the records, each with its expansion flag;
- the offset counts the records;
- record `i` has row number `i + 1` and the key `${Id}_${i}`.

Because of that invariant, row keys never repeat (`ListView.NumberedKeysDistinct`).

`loadRecords` is asynchronous. It is split into two methods:

- `StartLoad`: the guards and the synchronous part, up to the `getRecords` call. It returns that call's arguments.
- `FinishLoad`: the continuation once the call has settled.

`LoadRecords` is the two in sequence, which is how `loadConfig` awaits it.
The sort, search and refresh handlers do not await the load. They therefore end
with `StartLoad` and return the request they issue.

The `showInfiniteScrollLoader` getter is the predicate `ShowInfiniteScrollLoader`.
`StartLoad` states that it turns on when a scroll load starts.

`ExtractConfigNameFromUrl` follows the code as it runs, including the throwing
`String.isNotBlank` call described under "## Findings". The intended
selection is `Url.IntendedSelectFromUrl`, and the lemmas there relate the two.

## Model

Every row cites the component's one source file,
`force-app/main/default/lwc/j_FAD_dynamicCustomListview/j_FAD_dynamicCustomListview.js`,
by its path from the repository root.

| member | source | states |
|---|---|---|
| ListView.RecordListView.constructor | force-app/main/default/lwc/j_FAD_dynamicCustomListview/j_FAD_dynamicCustomListview.js:9-32 | every field starts at its initialiser (no records, no columns, title "Records", page size 20, offset 0, more records available, infinite scroll, configuration "HCO") and the list invariant holds |
| ListView.RecordListView.ExtractConfigNameFromUrl | force-app/main/default/lwc/j_FAD_dynamicCustomListview/j_FAD_dynamicCustomListview.js:47-83 | the configuration name and ids are those `SelectFromUrl` picks; the related-list flag is always false; a URL without `relatedlist` leaves the two ids untouched |
| Url.SelectFromUrlMeaning | force-app/main/default/lwc/j_FAD_dynamicCustomListview/j_FAD_dynamicCustomListview.js:47-83 | as the code runs: never a related-list view; without a `relatedlist` segment, the page name and no ids; with one, configuration "HCO" and the two segments after its first occurrence ("" when missing); the related object is the second segment's text up to its first `?`, or the whole segment when it has none |
| Url.PageConfigNameMeaning | force-app/main/default/lwc/j_FAD_dynamicCustomListview/j_FAD_dynamicCustomListview.js:73-74 | the last path segment exists and is unique; the configuration is that segment's text before its first `?`, or "HCO" when that text is empty or "s"; it is never empty and holds no `/` or `?` |
| Url.IntendedSelectMeaning | force-app/main/default/lwc/j_FAD_dynamicCustomListview/j_FAD_dynamicCustomListview.js:54-71 | the intended branch selects the related object's configuration exactly when the URL has a `relatedlist` segment followed by two non-empty ids, and otherwise agrees with the code as it runs |
| Url.RelatedListUrlFallsBack | force-app/main/default/lwc/j_FAD_dynamicCustomListview/j_FAD_dynamicCustomListview.js:54-82 | on every URL `…/relatedlist/<id>/<object>` with both ids present, the code as written selects "HCO" and no related-list view, while the intended branch selects `<object>` |
| Url.RelatedIdsOfPath | force-app/main/default/lwc/j_FAD_dynamicCustomListview/j_FAD_dynamicCustomListview.js:55-59 | the two ids read back from a related-list path are the two segments written after `relatedlist` |
| Url.IndexOfSegment | force-app/main/default/lwc/j_FAD_dynamicCustomListview/j_FAD_dynamicCustomListview.js:55 | `indexOf`: the first position holding the segment, or -1 exactly when no position does |
| Settings.DerivedSettingsMeaning | force-app/main/default/lwc/j_FAD_dynamicCustomListview/j_FAD_dynamicCustomListview.js:127-130 | a configured title is kept; otherwise the title is the object name plus "s", preceded by exactly the record type and a space when there is one; the page size and loading type are never 0 or empty |
| Settings.DefaultSortFieldsMeaning | force-app/main/default/lwc/j_FAD_dynamicCustomListview/j_FAD_dynamicCustomListview.js:133 | the initial sort is the parse of `config.sortBy \|\| 'Name ASC'`: Name ascending without a configured sort, one entry per comma-separated part with one |
| Sorting.ParseSortByMeaning | force-app/main/default/lwc/j_FAD_dynamicCustomListview/j_FAD_dynamicCustomListview.js:145-154 | "" parses to no fields; otherwise one entry per comma-separated part, in order; the field name is the first whitespace-free token of the trimmed part; the direction is descending exactly when a second token reads "desc" in any case |
| Sorting.PartMeaning | force-app/main/default/lwc/j_FAD_dynamicCustomListview/j_FAD_dynamicCustomListview.js:147-152 | one part's entry: the field is its first token, the direction is descending exactly when a second token lower-cases to "desc" |
| Sorting.ParseFormatRoundTrip | force-app/main/default/lwc/j_FAD_dynamicCustomListview/j_FAD_dynamicCustomListview.js:145-154 | every sort written as "Field DIR,Field DIR" with plain field names parses back to exactly those entries |
| Sorting.EntryRoundTrip | force-app/main/default/lwc/j_FAD_dynamicCustomListview/j_FAD_dynamicCustomListview.js:148-152 | "Field ASC" and "Field DESC" parse back to the field and its direction |
| Sorting.IndexOfField | force-app/main/default/lwc/j_FAD_dynamicCustomListview/j_FAD_dynamicCustomListview.js:208 | `findIndex` by field name: the first matching position, no earlier match, -1 when none matches |
| Sorting.SortIconMeaning | force-app/main/default/lwc/j_FAD_dynamicCustomListview/j_FAD_dynamicCustomListview.js:343-346 | no icon exactly when the field is not sorted on; the up arrow exactly when its first entry is ascending, the down arrow exactly when it is descending |
| Sorting.KeepFirstMeaning | force-app/main/default/lwc/j_FAD_dynamicCustomListview/j_FAD_dynamicCustomListview.js:225-228 | the de-duplication filter leaves distinct names in the order the names first occur, finds the same entry for every name as before, and changes nothing on an already distinct list |
| Sorting.KeepFirstOf | force-app/main/default/lwc/j_FAD_dynamicCustomListview/j_FAD_dynamicCustomListview.js:226-228 | the entry-by-entry filter computes the de-duplication `KeepFirst` |
| Sorting.ClickSortMeaning | force-app/main/default/lwc/j_FAD_dynamicCustomListview/j_FAD_dynamicCustomListview.js:207-230 | after a click the sort fields have distinct names; the clicked field's entry is flipped if it was sorted, else new with the opposite of its default direction (ascending when the default does not name it); every other field keeps its entry |
| Sorting.ClickSortOnDistinct | force-app/main/default/lwc/j_FAD_dynamicCustomListview/j_FAD_dynamicCustomListview.js:217-228 | on distinct sort fields a click flips a sorted field where it stands and appends any other field at the end |
| Sorting.ClickedSortFields | force-app/main/default/lwc/j_FAD_dynamicCustomListview/j_FAD_dynamicCustomListview.js:207-230 | the in-place flip or push followed by the filter yields `ClickSort`, with distinct names and the clicked entry found |
| Columns.FormatLabelMeaning | force-app/main/default/lwc/j_FAD_dynamicCustomListview/j_FAD_dynamicCustomListview.js:504-511 | up to case and underscores, a label is the field name with a space in front of each capital; it holds no underscore, every word starts with a capital, and no capital sits inside a word |
| Columns.IsLinkFieldMeaning | force-app/main/default/lwc/j_FAD_dynamicCustomListview/j_FAD_dynamicCustomListview.js:513-517 | a field is a link field exactly when "name", "email" or "url" occurs somewhere in its lower-cased name |
| Columns.PushedMeaning | force-app/main/default/lwc/j_FAD_dynamicCustomListview/j_FAD_dynamicCustomListview.js:172-198 | every pushed column carries the sort icon of its field, and for Account and Contact none is FirstName, LastName or Name |
| Columns.NamedMeaning | force-app/main/default/lwc/j_FAD_dynamicCustomListview/j_FAD_dynamicCustomListview.js:200 | the final filter keeps exactly the columns with a field name: each kept column is named and from its input, and every named input column is kept |
| Columns.ColumnOrder | force-app/main/default/lwc/j_FAD_dynamicCustomListview/j_FAD_dynamicCustomListview.js:158-200 | columns follow configuration order: the columns of two lists of entries are those of the first followed by those of the second, after the Name column of Account and Contact |
| Columns.ConfiguredColumnsMeaning | force-app/main/default/lwc/j_FAD_dynamicCustomListview/j_FAD_dynamicCustomListview.js:156-203 | every column has a field name and the icon of its sort state; Account and Contact lists start with the sortable link column Name and show no other name part |
| ListView.RecordListView.SetupColumns | force-app/main/default/lwc/j_FAD_dynamicCustomListview/j_FAD_dynamicCustomListview.js:156-203 | the loop over the configured fields assigns `ConfiguredColumns` when there are fields and leaves the columns alone when there are none |
| Json.GetFieldValue | force-app/main/default/lwc/j_FAD_dynamicCustomListview/j_FAD_dynamicCustomListview.js:470-486 | the loop that steps along a dotted name and breaks at null or undefined computes `FieldValue`: '' for a falsy record or name or a missing value, otherwise the value's text |
| Json.FieldValueIsWalk | force-app/main/default/lwc/j_FAD_dynamicCustomListview/j_FAD_dynamicCustomListview.js:473-482 | the dotted and the plain branch agree: a plain name is a path of one step |
| Json.WalkStopsAtNullish | force-app/main/default/lwc/j_FAD_dynamicCustomListview/j_FAD_dynamicCustomListview.js:476-480 | a null or undefined value anywhere along the path makes the result '' |
| Display.FormatPhoneMeaning | force-app/main/default/lwc/j_FAD_dynamicCustomListview/j_FAD_dynamicCustomListview.js:556-566 | formatting keeps the digits; ten digits become the 14-character "(ddd) ddd-dddd"; any other value is returned unchanged; formatting twice is formatting once |
| Display.DigitsOfLayout | force-app/main/default/lwc/j_FAD_dynamicCustomListview/j_FAD_dynamicCustomListview.js:560 | the "(ddd) ddd-dddd" layout of ten digits holds exactly those digits, in order |
| Display.FormatDisplayValueMeaning | force-app/main/default/lwc/j_FAD_dynamicCustomListview/j_FAD_dynamicCustomListview.js:488-502 | an empty value shows empty and nothing else does; a non-empty currency, date, datetime or percent value goes to its formatter, and only those four types do; a phone shows its formatted number with the digits kept; every other type shows the value as it is |
| Display.PersonNameMeaning | force-app/main/default/lwc/j_FAD_dynamicCustomListview/j_FAD_dynamicCustomListview.js:288-297 | the Name wins when present; otherwise "First Last", or whichever part is present; empty only when all three are |
| Display.BuildCell | force-app/main/default/lwc/j_FAD_dynamicCustomListview/j_FAD_dynamicCustomListview.js:286-305 | the per-column body computes `CellFor`: the field's text (or the Name fallback) with its display form |
| Display.BuildRow | force-app/main/default/lwc/j_FAD_dynamicCustomListview/j_FAD_dynamicCustomListview.js:277-310 | the mapping callback, pushing one cell per column, builds `RowFor` |
| Display.RowKeysDiffer | force-app/main/default/lwc/j_FAD_dynamicCustomListview/j_FAD_dynamicCustomListview.js:280 | rows at different positions have different keys, whatever their Ids |
| Display.MapRecords | force-app/main/default/lwc/j_FAD_dynamicCustomListview/j_FAD_dynamicCustomListview.js:277-310 | mapping a page fails exactly when it holds a null record (on which `record.Id` throws), and otherwise yields `RowsFor` |
| Display.MobileCardMeaning | force-app/main/default/lwc/j_FAD_dynamicCustomListview/j_FAD_dynamicCustomListview.js:348-382 | no card without cells; the heading is the first Name/title/subject cell or the first cell; allFields is exactly the other cells with a value, in order; visible + hidden = allFields split at `visibleMobileFields \|\| 2` (negative counting from the back); the button shows exactly when expandable with hidden fields; there is a subtitle exactly when the first id or number cell has a value, and it is that cell's display value |
| Display.PrimaryIndex | force-app/main/default/lwc/j_FAD_dynamicCustomListview/j_FAD_dynamicCustomListview.js:351-355 | the first cell named Name or mentioning title or subject, or -1 when there is none |
| Display.SubtitleIndex | force-app/main/default/lwc/j_FAD_dynamicCustomListview/j_FAD_dynamicCustomListview.js:375-378 | the first cell whose name mentions id or number, or -1 when there is none |
| Display.NonEmptyValuesMeaning | force-app/main/default/lwc/j_FAD_dynamicCustomListview/j_FAD_dynamicCustomListview.js:365 | the filter keeps exactly the cells with a non-empty value, distributes over concatenation, and keeps or drops a single cell by its value, so order is kept |
| Display.WithoutMeaning | force-app/main/default/lwc/j_FAD_dynamicCustomListview/j_FAD_dynamicCustomListview.js:359 | removing the heading index leaves one cell fewer: the cells before it at their positions and the cells after it one place earlier |
| Display.ItemsTextMeaning | force-app/main/default/lwc/j_FAD_dynamicCustomListview/j_FAD_dynamicCustomListview.js:568-572 | the text starts with the count in decimal, which reads back to the count, ends in " items" and has "+" exactly when more records can be loaded |
| ListView.RecordListView.ItemsDisplayText | force-app/main/default/lwc/j_FAD_dynamicCustomListview/j_FAD_dynamicCustomListview.js:568-572 | on a consistent list the getter counts the loaded records |
| ListView.RecordListView.ShowInfiniteScrollLoader | force-app/main/default/lwc/j_FAD_dynamicCustomListview/j_FAD_dynamicCustomListview.js:578-580 | the loader shows exactly during a scroll load while more records can be loaded, and the items text then reads "n+ items" |
| ListView.FetchError | force-app/main/default/lwc/j_FAD_dynamicCustomListview/j_FAD_dynamicCustomListview.js:330 | the error message is the server's message when it has one and "Error fetching records" otherwise; it is never empty |
| ListView.FailureText | force-app/main/default/lwc/j_FAD_dynamicCustomListview/j_FAD_dynamicCustomListview.js:329-330 | a rejected call records its message, or "Error fetching records" when it has none; a page that fails to map records "Error fetching records" |
| ListView.NumberedAppend | force-app/main/default/lwc/j_FAD_dynamicCustomListview/j_FAD_dynamicCustomListview.js:280-281 | a page fetched at the current length continues the numbering of the records |
| ListView.NumberedKeysDistinct | force-app/main/default/lwc/j_FAD_dynamicCustomListview/j_FAD_dynamicCustomListview.js:280 | numbered records never share a key |
| ListView.FindColumn | force-app/main/default/lwc/j_FAD_dynamicCustomListview/j_FAD_dynamicCustomListview.js:211 | `find` by field name: the first column with that name (no earlier column has it), or none exactly when no column has it |
| ListView.RecordListView.StartLoad | force-app/main/default/lwc/j_FAD_dynamicCustomListview/j_FAD_dynamicCustomListview.js:245-273 | without reset, no more records or a scroll load in flight returns early and changes nothing; a reset empties the list and clears the locator and error; a scroll load raises both loading flags, which shows the infinite-scroll loader; the request carries the current state |
| ListView.RecordListView.Fail | force-app/main/default/lwc/j_FAD_dynamicCustomListview/j_FAD_dynamicCustomListview.js:329-335 | the catch block records the message, offers no more records and empties the list only on a reset |
| ListView.RecordListView.Accept | force-app/main/default/lwc/j_FAD_dynamicCustomListview/j_FAD_dynamicCustomListview.js:312-327 | the mapped rows replace (reset) or follow the records, projected with their expansion flags; the offset grows by the page size; the has-more flag is the page's |
| ListView.RecordListView.TakePage | force-app/main/default/lwc/j_FAD_dynamicCustomListview/j_FAD_dynamicCustomListview.js:275-327 | the locator is always taken from the page; a page with a null record runs the catch block; otherwise its rows are added as `Accept` says |
| ListView.RecordListView.FinishLoad | force-app/main/default/lwc/j_FAD_dynamicCustomListview/j_FAD_dynamicCustomListview.js:275-340 | after the call settles the loading flags are down and the infinite-scroll loader is hidden; a rejection records its message and keeps the locator; any failure leaves the offset and offers no more records; a success adds the page's rows |
| ListView.RecordListView.LoadRecords | force-app/main/default/lwc/j_FAD_dynamicCustomListview/j_FAD_dynamicCustomListview.js:245-341 | an early return changes nothing; otherwise the request has offset 0 and no locator on a reset, and the settled state is `LoadedFrom` the emptied or current list; the list invariant holds afterwards |
| ListView.RecordListView.LoadConfig | force-app/main/default/lwc/j_FAD_dynamicCustomListview/j_FAD_dynamicCustomListview.js:123-143 | a failed configuration load records its message (or "Error loading configuration for <name>"), empties config and columns and titles the list "Records"; a loaded one sets the derived settings, the default sort, the columns, and completes a reset load |
| ListView.RecordListView.Configure | force-app/main/default/lwc/j_FAD_dynamicCustomListview/j_FAD_dynamicCustomListview.js:126-135 | the try block: settings, sort, columns, then a completed reset load from an empty list |
| ListView.RecordListView.ApplyConfig | force-app/main/default/lwc/j_FAD_dynamicCustomListview/j_FAD_dynamicCustomListview.js:126-134 | the configuration, derived settings, default sort and columns are set before the load |
| ListView.RecordListView.ConfigFailure | force-app/main/default/lwc/j_FAD_dynamicCustomListview/j_FAD_dynamicCustomListview.js:136-142 | the catch block of loadConfig |
| ListView.RecordListView.HandleSort | force-app/main/default/lwc/j_FAD_dynamicCustomListview/j_FAD_dynamicCustomListview.js:205-243 | a click on a missing or unsortable column changes nothing; otherwise the sort fields become `ClickSort` of the old ones and the parsed default, every column's icon follows the new sort, the expanded cards close and a reset load starts with `isLoadingMore` untouched; the list invariant is kept |
| ListView.RecordListView.ApplySort | force-app/main/default/lwc/j_FAD_dynamicCustomListview/j_FAD_dynamicCustomListview.js:217-236 | the sort update, then every column keeps all it had but its icon, which becomes the one of its field |
| ListView.RecordListView.SearchChanged | force-app/main/default/lwc/j_FAD_dynamicCustomListview/j_FAD_dynamicCustomListview.js:387-394 | the same term does nothing; a new one replaces the search, closes the expanded cards and starts a reset load with `isLoadingMore` untouched |
| ListView.RecordListView.HandleRefresh | force-app/main/default/lwc/j_FAD_dynamicCustomListview/j_FAD_dynamicCustomListview.js:397-402 | the expanded cards close and a reset load starts with `isLoadingMore` untouched, leaving a consistent empty list |
| ListView.Toggled | force-app/main/default/lwc/j_FAD_dynamicCustomListview/j_FAD_dynamicCustomListview.js:449-453 | the clicked id changes membership and every other id keeps it |
| ListView.ToggleFlipsClicked | force-app/main/default/lwc/j_FAD_dynamicCustomListview/j_FAD_dynamicCustomListview.js:449-457 | a click flips the expansion of exactly the cards whose Id is the clicked id |
| ListView.ReprojectProject | force-app/main/default/lwc/j_FAD_dynamicCustomListview/j_FAD_dynamicCustomListview.js:454-457 | recomputing the flags of displayed records gives the projection of the records under the new ids |
| ListView.RecordListView.HandleCardExpand | force-app/main/default/lwc/j_FAD_dynamicCustomListview/j_FAD_dynamicCustomListview.js:445-458 | on a non-expandable list nothing changes; otherwise the clicked id is toggled and every displayed flag recomputed, keeping the list invariant |

## Left out

- Navigation: `getCurrentPageReference`'s URL generation, `handleRowClick` and `window`. `ExtractConfigNameFromUrl` takes the URL as a parameter, and `connectedCallback` is the constructor followed by that method and `LoadConfig`.
- The remote calls `getConfig` and `getRecords` are replaced by their outcomes, passed to `LoadConfig` and `LoadRecords`. A null or absent `fields` list is the empty list, and a null or absent `sortBy` is "": the component skips the first and defaults the second without throwing. Three `getConfig` results are not modelled; in the component each throws into the catch block of `loadConfig`:
  - a null result;
  - a `fields` value that is not an array but has a positive `length`;
  - a truthy `sortBy` that is not a string.
- `cleanupQueryLocatorCache`, `disconnectedCallback`, `renderedCallback` and the scroll listeners: DOM and server side effects only.
- `handleScroll`: the scroll geometry is DOM state. A scroll that reaches the threshold is `LoadRecords(false)` or `StartLoad(false)`.
- `handleSearch`'s 500 ms debounce timer: only the callback that fires is modelled, as `SearchChanged`.
- Toasts, console output, `lastUpdateTime` (a clock reading) and the `@track` reactivity.
- The `filteredRecords` getter: it returns the displayed records unchanged.
- `config.totalCount` is read by `itemsDisplayText` but never used.
- `formatCurrency`, `formatDate`, `formatDateTime` and `formatPercent` depend on `Intl`, the locale, the clock and floating point. Their output is the opaque `Formatted(kind, raw)`.
- `Json.GetFieldValue`: JSON arrays, fractional numbers and properties of primitive values (such as a string's `length` reached through a dotted name) are not modelled. Indexing a primitive yields undefined.
- Whitespace and letter case are ASCII only (`trim`, `\s+`, `toLowerCase`, `toUpperCase`, `\b\w`).
- Fractional `pageSize` and `visibleMobileFields` are not modelled: both are integers here.
- `ListView.RecordListView.HandleSort`, `ListView.RecordListView.SearchChanged` and `ListView.RecordListView.HandleRefresh` end when the load they start issues its request. They do not await it, and the answer is delivered by `FinishLoad`.
- `ListView.RecordListView.FinishLoad` keeps the list invariant only when no other load changed the list while the call was pending: concurrent responses (a stale page arriving after a reset) are not modelled.
- `ListView.RecordListView.HandleSort` clears the locator and the expanded cards before the sort update rather than after. The two touch disjoint fields, so the final state is the same.
- A null entry in `config.fields` is not modelled: entries are strings or field objects. On a null entry the field-object test at line 185 throws, and `loadConfig`'s catch block runs with the new page size, loading type and sort fields already set.
- A `getRecords` answer that is null, or has no `records` list, is not modelled: a page always carries a list. Such an answer throws at lines 275-277 and runs the catch block of `loadRecords`. Without a `records` list this happens after the locator has been taken.
- `ListView.RecordListView.FinishLoad` lowers the three loading flags before the try block's effects rather than in `finally`. Nothing in between reads them, so the final state is the same.

## Findings

| source | as written | input that shows it | evidently intended | confidence | as-written member | corrected member |
|---|---|---|---|---|---|---|
| force-app/main/default/lwc/j_FAD_dynamicCustomListview/j_FAD_dynamicCustomListview.js:60 | `String.isNotBlank(…)` is not a JavaScript function, so the call throws. The catch block then selects "HCO" and no related-list view | the URL `/s/relatedlist/001A/Contact`: configuration "HCO", not the related list | a non-blank test on both ids, selecting the related object's configuration (lines 62-66) | high; not executed | Url.RelatedListUrlFallsBack | Url.IntendedSelectMeaning |

=== FILE: columns.dfy ===
/** Column derivation: the table columns setupColumns builds from the configured
    fields, with the label and link rules (formatLabel, isLinkField). */
module Columns {
  import opened Strings
  import opened Optional
  import opened Sorting
  import opened Settings

  /** One table column; `sortIcon` is None where the source has null. */
  datatype Column = Column(
    labelText: string,
    fieldName: string,
    sortable: bool,
    isLink: bool,
    columnType: string,
    sortIcon: Option<string>)

  // ---------------------------------------------------------------------------
  // formatLabel

  /** A space in front of every capital letter. */
  function SpaceBeforeCapitals(s: string): string {
    if s == [] then [] else (if IsUpper(s[0]) then [' ', s[0]] else [s[0]]) + SpaceBeforeCapitals(s[1..])
  }

  /** The first character in upper case. */
  function CapitalizeFirst(s: string): string {
    if s == [] then [] else [UpperChar(s[0])] + s[1..]
  }

  /** Every underscore turned into a space. */
  function UnderscoresToSpaces(s: string): (r: string)
    ensures |r| == |s|
    ensures forall i :: 0 <= i < |s| ==> r[i] == if s[i] == '_' then ' ' else s[i]
  {
    if s == [] then [] else [if s[0] == '_' then ' ' else s[0]] + UnderscoresToSpaces(s[1..])
  }

  /** Every word character at a word boundary in upper case, on the rest of a string whose
      previous character was a word character exactly when `afterWord`. */
  function CapitalizeWordsFrom(s: string, afterWord: bool): (r: string)
    ensures |r| == |s|
  {
    if s == [] then []
    else
      [if IsWordChar(s[0]) && !afterWord then UpperChar(s[0]) else s[0]]
      + CapitalizeWordsFrom(s[1..], IsWordChar(s[0]))
  }

  /** Character i is capitalised exactly when it is a word character that does not
      follow one. */
  lemma {:induction false} CapitalizeWordsAt(s: string, afterWord: bool)
    ensures forall i {:trigger CapitalizeWordsFrom(s, afterWord)[i]} :: 0 <= i < |s| ==>
      CapitalizeWordsFrom(s, afterWord)[i] ==
        if IsWordChar(s[i]) && !(if i == 0 then afterWord else IsWordChar(s[i - 1]))
        then UpperChar(s[i]) else s[i]
  {
    if s != [] {
      CapitalizeWordsAt(s[1..], IsWordChar(s[0]));
      var r := CapitalizeWordsFrom(s, afterWord);
      forall i | 0 <= i < |s|
        ensures r[i] == if IsWordChar(s[i]) && !(if i == 0 then afterWord else IsWordChar(s[i - 1]))
          then UpperChar(s[i]) else s[i]
      {
        if i > 0 {
          var t := s[1..];
          var j := i - 1;
          assert r[i] == CapitalizeWordsFrom(t, IsWordChar(s[0]))[j];
          assert t[j] == s[i];
          assert (if j == 0 then IsWordChar(s[0]) else IsWordChar(t[j - 1])) == IsWordChar(s[i - 1]);
        }
      }
    }
  }

  /** formatLabel(fieldName): "AccountName" becomes " Account Name" and
      "custom_field__c" becomes "Custom Field  C". */
  function FormatLabel(fieldName: string): string {
    if fieldName == "" then ""
    else CapitalizeWordsFrom(UnderscoresToSpaces(CapitalizeFirst(SpaceBeforeCapitals(fieldName))), false)
  }

  /** The letters and digits of a label, compared without case, spaces and underscores. */
  function Key(s: string): string {
    if s == [] then []
    else (if s[0] == ' ' || s[0] == '_' then [] else [LowerChar(s[0])]) + Key(s[1..])
  }

  lemma {:induction false} KeyAppend(a: string, b: string)
    ensures Key(a + b) == Key(a) + Key(b)
  {
    if a != [] {
      assert (a + b)[1..] == a[1..] + b;
      KeyAppend(a[1..], b);
    } else {
      assert a + b == b;
    }
  }

  lemma {:induction false} KeySpaceBeforeCapitals(s: string)
    ensures Key(SpaceBeforeCapitals(s)) == Key(s)
  {
    if s != [] {
      KeySpaceBeforeCapitals(s[1..]);
      var head := if IsUpper(s[0]) then [' ', s[0]] else [s[0]];
      KeyAppend(head, SpaceBeforeCapitals(s[1..]));
      KeyAppend([s[0]], s[1..]);
      assert [s[0]] + s[1..] == s;
      if IsUpper(s[0]) {
        assert head == [' '] + [s[0]];
        KeyAppend([' '], [s[0]]);
      }
    }
  }

  /** Every capital of `s` after the first character comes right after a space. */
  predicate CapitalsAfterSpaces(s: string) {
    forall i :: 0 < i < |s| && IsUpper(s[i]) ==> s[i - 1] == ' '
  }

  lemma {:induction false} SpaceBeforeCapitalsSpaced(s: string)
    ensures CapitalsAfterSpaces(SpaceBeforeCapitals(s))
  {
    if s != [] {
      SpaceBeforeCapitalsSpaced(s[1..]);
      var head := if IsUpper(s[0]) then [' ', s[0]] else [s[0]];
      var tail := SpaceBeforeCapitals(s[1..]);
      var a := head + tail;
      forall i | 0 < i < |a| && IsUpper(a[i]) ensures a[i - 1] == ' ' {
        if i >= |head| {
          assert a[i] == tail[i - |head|];
          assert a[i - 1] == tail[i - 1 - |head|];
        }
      }
    }
  }

  lemma CapitalizeFirstSpaced(a: string)
    requires CapitalsAfterSpaces(a)
    ensures CapitalsAfterSpaces(CapitalizeFirst(a))
  {
  }

  lemma UnderscoresToSpacesSpaced(b: string)
    requires CapitalsAfterSpaces(b)
    ensures CapitalsAfterSpaces(UnderscoresToSpaces(b))
  {
  }

  /** Capitalising word starts adds capitals only at word starts, and the
      capitals already there follow spaces, so none sits inside a word. */
  lemma CapitalizeWordsInitial(c: string)
    requires CapitalsAfterSpaces(c)
    ensures var r := CapitalizeWordsFrom(c, false);
      forall i :: 0 < i < |r| && IsUpper(r[i]) ==> !IsWordChar(r[i - 1])
  {
    var r := CapitalizeWordsFrom(c, false);
    CapitalizeWordsAt(c, false);
    forall i | 0 < i < |r| && IsUpper(r[i]) ensures !IsWordChar(r[i - 1]) {
      LowerUpper(c[i]);
      LowerUpper(c[i - 1]);
    }
  }

  lemma LowerUpper(c: char)
    ensures LowerChar(UpperChar(c)) == LowerChar(c)
    ensures UpperChar(c) == ' ' <==> c == ' '
    ensures UpperChar(c) == '_' <==> c == '_'
    ensures IsWordChar(UpperChar(c)) <==> IsWordChar(c)
  {
  }

  lemma KeyCapitalizeFirst(s: string)
    ensures Key(CapitalizeFirst(s)) == Key(s)
  {
    if s != [] {
      LowerUpper(s[0]);
      KeyAppend([UpperChar(s[0])], s[1..]);
      KeyAppend([s[0]], s[1..]);
      assert [s[0]] + s[1..] == s;
    }
  }

  lemma {:induction false} KeyUnderscoresToSpaces(s: string)
    ensures Key(UnderscoresToSpaces(s)) == Key(s)
  {
    if s != [] {
      KeyUnderscoresToSpaces(s[1..]);
      assert UnderscoresToSpaces(s)[1..] == UnderscoresToSpaces(s[1..]);
    }
  }

  lemma {:induction false} KeyCapitalizeWords(s: string, afterWord: bool)
    ensures Key(CapitalizeWordsFrom(s, afterWord)) == Key(s)
  {
    if s != [] {
      KeyCapitalizeWords(s[1..], IsWordChar(s[0]));
      LowerUpper(s[0]);
      assert CapitalizeWordsFrom(s, afterWord)[1..] == CapitalizeWordsFrom(s[1..], IsWordChar(s[0]));
    }
  }

  /** A character with case ignored and an underscore read as a space. */
  function FoldChar(c: char): char {
    if c == '_' then ' ' else LowerChar(c)
  }

  /** A string with case ignored and underscores read as spaces. */
  function Fold(s: string): (r: string)
    ensures |r| == |s|
    ensures forall i :: 0 <= i < |s| ==> r[i] == FoldChar(s[i])
  {
    seq(|s|, i requires 0 <= i < |s| => FoldChar(s[i]))
  }

  lemma FoldUpper(c: char)
    ensures FoldChar(UpperChar(c)) == FoldChar(c)
  {
    LowerUpper(c);
  }

  /** Up to case and underscores, the label is the field name with a space put
      in front of each of its capitals. */
  lemma FoldFormatLabel(fieldName: string)
    ensures Fold(FormatLabel(fieldName)) == Fold(SpaceBeforeCapitals(fieldName))
  {
    if fieldName != "" {
      var a := SpaceBeforeCapitals(fieldName);
      var b := CapitalizeFirst(a);
      var c := UnderscoresToSpaces(b);
      var r := CapitalizeWordsFrom(c, false);
      CapitalizeWordsAt(c, false);
      forall i | 0 <= i < |a| ensures FoldChar(r[i]) == FoldChar(a[i]) {
        FoldUpper(c[i]);
        if i == 0 {
          FoldUpper(a[0]);
        } else {
          assert b[i] == a[i];
        }
      }
      assert Fold(r) == Fold(a);
    }
  }

  /** A label keeps the field name's letters and digits in order (only case,
      spaces and underscores change), has a space in front of each capital of the
      name, has no underscore left, begins every word with a capital, and has no
      capital inside a word. */
  lemma FormatLabelMeaning(fieldName: string)
    ensures Key(FormatLabel(fieldName)) == Key(fieldName)
    ensures '_' !in FormatLabel(fieldName)
    ensures var r := FormatLabel(fieldName);
      forall i :: 0 <= i < |r| && IsWordChar(r[i]) && (i == 0 || !IsWordChar(r[i - 1])) ==>
        !IsLowerLetter(r[i])
    ensures var r := FormatLabel(fieldName);
      forall i :: 0 < i < |r| && IsUpper(r[i]) ==> !IsWordChar(r[i - 1])
    ensures Fold(FormatLabel(fieldName)) == Fold(SpaceBeforeCapitals(fieldName))
  {
    FoldFormatLabel(fieldName);
    if fieldName != "" {
      var a := SpaceBeforeCapitals(fieldName);
      var b := CapitalizeFirst(a);
      var c := UnderscoresToSpaces(b);
      var r := CapitalizeWordsFrom(c, false);
      KeySpaceBeforeCapitals(fieldName);
      KeyCapitalizeFirst(a);
      KeyUnderscoresToSpaces(b);
      KeyCapitalizeWords(c, false);
      CapitalizeWordsAt(c, false);
      forall i | 0 <= i < |r| ensures r[i] != '_' && IsWordChar(r[i]) == IsWordChar(c[i]) {
        LowerUpper(c[i]);
        assert c[i] != '_';
        assert r[i] == c[i] || r[i] == UpperChar(c[i]);
      }
      forall i | 0 <= i < |r| && IsWordChar(r[i]) && (i == 0 || !IsWordChar(r[i - 1]))
        ensures !IsLowerLetter(r[i])
      {
        assert IsWordChar(c[i]);
      }
      SpaceBeforeCapitalsSpaced(fieldName);
      CapitalizeFirstSpaced(a);
      UnderscoresToSpacesSpaced(b);
      CapitalizeWordsInitial(c);
    }
  }

  // ---------------------------------------------------------------------------
  // isLinkField

  /** isLinkField(fieldName): the lower-cased name mentions name, email or url. */
  function IsLinkField(fieldName: string): bool {
    Contains(Lower(fieldName), "name") || Contains(Lower(fieldName), "email") || Contains(Lower(fieldName), "url")
  }

  /** A field is a link field exactly when "name", "email" or "url" occurs in its
      lower-cased name at some position. */
  lemma IsLinkFieldMeaning(fieldName: string)
    ensures IsLinkField(fieldName) <==>
      (exists i :: OccursAt(Lower(fieldName), "name", i))
      || (exists i :: OccursAt(Lower(fieldName), "email", i))
      || (exists i :: OccursAt(Lower(fieldName), "url", i))
  {
    var low := Lower(fieldName);
    ContainsIff(low, "name");
    ContainsIff(low, "email");
    ContainsIff(low, "url");
    if Contains(low, "name") {
      var i :| OccursAt(low, "name", i);
      assert exists j :: OccursAt(Lower(fieldName), "name", j);
    } else if Contains(low, "email") {
      var i :| OccursAt(low, "email", i);
      assert exists j :: OccursAt(Lower(fieldName), "email", j);
    } else if Contains(low, "url") {
      var i :| OccursAt(low, "url", i);
      assert exists j :: OccursAt(Lower(fieldName), "url", j);
    }
  }

  // ---------------------------------------------------------------------------
  // setupColumns

  /** The names Account and Contact lists show only through their Name column. */
  predicate IsPersonNamePart(name: string) {
    name == "FirstName" || name == "LastName" || name == "Name"
  }

  /** The link column Account and Contact lists get first. */
  function NameColumn(sortFields: seq<SortField>): Column {
    Column("Name", "Name", true, true, "text", SortIcon(sortFields, "Name"))
  }

  /** The column one configured entry pushes, if any. */
  function ColumnFor(entry: FieldConfig, accountOrContact: bool, sortFields: seq<SortField>): Option<Column>
  {
    match entry
    case FieldName(n) =>
      if accountOrContact && IsPersonNamePart(n) then None
      else Some(Column(FormatLabel(n), n, true, IsLinkField(n), "text", SortIcon(sortFields, n)))
    case FieldObject(n, labelText, sortable, isLink, columnType) =>
      if n == "" || (accountOrContact && IsPersonNamePart(n)) then None
      else Some(Column(
        if labelText != "" then labelText else FormatLabel(n),
        n,
        sortable != Some(false),
        isLink,
        if columnType != "" then columnType else "text",
        SortIcon(sortFields, n)))
    case FieldOther => None
  }

  /** `ColumnFor` with the object kind and the sort fields fixed. */
  function ColumnMaker(accountOrContact: bool, sortFields: seq<SortField>): FieldConfig -> Option<Column>
  {
    e => ColumnFor(e, accountOrContact, sortFields)
  }

  /** The columns pushed for a list of entries, in order. */
  function Pushed(entries: seq<FieldConfig>, accountOrContact: bool, sortFields: seq<SortField>): seq<Column>
  {
    Somes(Map(ColumnMaker(accountOrContact, sortFields), entries))
  }

  /** The columns with a non-empty field name. */
  function Named(cols: seq<Column>): seq<Column> {
    if cols == [] then []
    else (if cols[0].fieldName != "" then [cols[0]] else []) + Named(cols[1..])
  }

  /** The columns setupColumns assigns when the configuration has fields. */
  function ConfiguredColumns(c: Config, sortFields: seq<SortField>): seq<Column>
  {
    var acct := IsAccountOrContact(c);
    Named((if acct then [NameColumn(sortFields)] else []) + Pushed(c.fields, acct, sortFields))
  }

  /** One entry pushes its column, if it has one. */
  lemma PushedOne(e: FieldConfig, acct: bool, sf: seq<SortField>)
    ensures var col := ColumnFor(e, acct, sf);
      Pushed([e], acct, sf) == if col.Some? then [col.value] else []
  {
    var xs := Map(ColumnMaker(acct, sf), [e]);
    assert xs[0] == ColumnFor(e, acct, sf) && xs[1..] == [];
    assert Somes(xs) == (if xs[0].Some? then [xs[0].value] else []) + Somes(xs[1..]);
  }

  /** One more entry of a list pushes its column after those of the entries
      before it. */
  lemma PushedStep(entries: seq<FieldConfig>, i: nat, acct: bool, sf: seq<SortField>)
    requires i < |entries|
    ensures var col := ColumnFor(entries[i], acct, sf);
      Pushed(entries[..i + 1], acct, sf)
        == Pushed(entries[..i], acct, sf) + if col.Some? then [col.value] else []
  {
    assert entries[..i + 1] == entries[..i] + [entries[i]];
    PushedAppend(entries[..i], [entries[i]], acct, sf);
    PushedOne(entries[i], acct, sf);
  }

  lemma PushedAppend(a: seq<FieldConfig>, b: seq<FieldConfig>, acct: bool, sf: seq<SortField>)
    ensures Pushed(a + b, acct, sf) == Pushed(a, acct, sf) + Pushed(b, acct, sf)
  {
    var f := ColumnMaker(acct, sf);
    MapAppend(f, a, b);
    SomesAppend(Map(f, a), Map(f, b));
  }

  lemma {:induction false} NamedAppend(a: seq<Column>, b: seq<Column>)
    ensures Named(a + b) == Named(a) + Named(b)
  {
    if a != [] {
      assert (a + b)[0] == a[0] && (a + b)[1..] == a[1..] + b;
      NamedAppend(a[1..], b);
    } else {
      assert a + b == b;
    }
  }

  /** The columns of configured entries, in configuration order. */
  function EntryColumns(entries: seq<FieldConfig>, acct: bool, sortFields: seq<SortField>): seq<Column> {
    Named(Pushed(entries, acct, sortFields))
  }

  /** Column order follows configuration order: the columns of two lists of
      entries are the columns of the first followed by those of the second, and
      the configured columns are the Name column (for Account and Contact) followed
      by those of the entries. */
  lemma ColumnOrder(c: Config, a: seq<FieldConfig>, b: seq<FieldConfig>, sortFields: seq<SortField>)
    ensures forall acct ::
      EntryColumns(a + b, acct, sortFields) == EntryColumns(a, acct, sortFields) + EntryColumns(b, acct, sortFields)
    ensures ConfiguredColumns(c, sortFields) ==
      (if IsAccountOrContact(c) then [NameColumn(sortFields)] else [])
      + EntryColumns(c.fields, IsAccountOrContact(c), sortFields)
  {
    forall acct: bool ensures EntryColumns(a + b, acct, sortFields)
      == EntryColumns(a, acct, sortFields) + EntryColumns(b, acct, sortFields)
    {
      PushedAppend(a, b, acct, sortFields);
      NamedAppend(Pushed(a, acct, sortFields), Pushed(b, acct, sortFields));
    }
    var acct := IsAccountOrContact(c);
    NamedAppend(if acct then [NameColumn(sortFields)] else [], Pushed(c.fields, acct, sortFields));
  }

  lemma PushedMeaning(entries: seq<FieldConfig>, acct: bool, sortFields: seq<SortField>)
    ensures forall j :: 0 <= j < |Pushed(entries, acct, sortFields)| ==>
      var col := Pushed(entries, acct, sortFields)[j];
      && col.sortIcon == SortIcon(sortFields, col.fieldName)
      && !(acct && IsPersonNamePart(col.fieldName))
  {
    var xs := Map(ColumnMaker(acct, sortFields), entries);
    SomesFrom(xs);
    forall j | 0 <= j < |Somes(xs)|
      ensures Somes(xs)[j].sortIcon == SortIcon(sortFields, Somes(xs)[j].fieldName)
      ensures !(acct && IsPersonNamePart(Somes(xs)[j].fieldName))
    {
      var i :| 0 <= i < |xs| && xs[i] == Some(Somes(xs)[j]);
      ColumnForIcon(entries[i], acct, sortFields);
    }
  }

  lemma ColumnForIcon(entry: FieldConfig, acct: bool, sortFields: seq<SortField>)
    ensures var col := ColumnFor(entry, acct, sortFields);
      col.Some? ==>
        && col.value.sortIcon == SortIcon(sortFields, col.value.fieldName)
        && !(acct && IsPersonNamePart(col.value.fieldName))
  {
  }

  /** Dropping the unnamed columns keeps exactly the named ones. */
  lemma {:induction false} NamedMeaning(cols: seq<Column>)
    ensures forall j :: 0 <= j < |Named(cols)| ==> Named(cols)[j].fieldName != "" && Named(cols)[j] in cols
    ensures forall col :: col in cols && col.fieldName != "" ==> col in Named(cols)
  {
    if cols != [] {
      NamedMeaning(cols[1..]);
      forall col | col in cols && col.fieldName != "" ensures col in Named(cols) {
        if col != cols[0] {
          assert col in cols[1..];
        }
      }
    }
  }

  /** Every configured column has a field name and the icon of its sort state;
      for Account and Contact the sortable link column Name comes first and no
      other column shows FirstName, LastName or Name. */
  lemma ConfiguredColumnsMeaning(c: Config, sortFields: seq<SortField>)
    ensures var cols := ConfiguredColumns(c, sortFields);
      forall j :: 0 <= j < |cols| ==>
        cols[j].fieldName != "" && cols[j].sortIcon == SortIcon(sortFields, cols[j].fieldName)
    ensures var cols := ConfiguredColumns(c, sortFields);
      IsAccountOrContact(c) ==>
        && |cols| > 0
        && cols[0] == NameColumn(sortFields)
        && cols[0].sortable && cols[0].isLink
        && forall j :: 1 <= j < |cols| ==> !IsPersonNamePart(cols[j].fieldName)
  {
    var acct := IsAccountOrContact(c);
    var pushed := Pushed(c.fields, acct, sortFields);
    ColumnOrder(c, [], [], sortFields);
    PushedMeaning(c.fields, acct, sortFields);
    NamedMeaning(pushed);
    var cols := ConfiguredColumns(c, sortFields);
    var prefix := if acct then [NameColumn(sortFields)] else [];
    assert cols == prefix + Named(pushed);
    forall j | 0 <= j < |cols|
      ensures cols[j].fieldName != "" && cols[j].sortIcon == SortIcon(sortFields, cols[j].fieldName)
      ensures acct && j >= 1 ==> !IsPersonNamePart(cols[j].fieldName)
    {
      if j >= |prefix| {
        var col := Named(pushed)[j - |prefix|];
        assert col in pushed;
      }
    }
  }
}

=== FILE: config.dfy ===
/** The list-view configuration the metadata service returns, and the settings
    loadConfig derives from it. */
module Settings {
  import opened Strings
  import opened Optional
  import opened Sorting

  /** One entry of `config.fields`. */
  datatype FieldConfig =
      /** A plain API field name. */
    | FieldName(name: string)
      /** `{ fieldName, label, sortable, isLink, type }`; an absent or empty text is "". */
    | FieldObject(fieldName: string, labelText: string, sortable: Option<bool>, isLink: bool, columnType: string)
      /** Any other entry (a number or a boolean), which produces no column. */
    | FieldOther

  /** The configuration record; absent text properties are "", absent numbers 0,
      and an absent or null list of fields is []. */
  datatype Config = Config(
    listTitle: string,
    recordType: string,
    objectApiName: Option<string>,
    pageSize: int,
    loadingType: string,
    sortBy: string,
    fields: seq<FieldConfig>,
    isExpandable: bool,
    visibleMobileFields: int)

  /** The empty configuration, what a failed configuration load leaves. */
  const EmptyConfig := Config("", "", None, 0, "", "", [], false, 0)

  /** `${objectApiName}`: the template text of a possibly undefined name. */
  function ObjectName(c: Config): string {
    if c.objectApiName.Some? then c.objectApiName.value else "undefined"
  }

  predicate IsAccountOrContact(c: Config) {
    c.objectApiName == Some("Account") || c.objectApiName == Some("Contact")
  }

  /** The configured title, or else the plural of the object name, after the record type when there is one. */
  function ListTitle(c: Config): string {
    if c.listTitle != "" then c.listTitle
    else if c.recordType != "" then c.recordType + " " + ObjectName(c) + "s"
    else ObjectName(c) + "s"
  }

  /** The configured page size, or 20 when it is missing or zero. */
  function PageSize(c: Config): int {
    if c.pageSize != 0 then c.pageSize else 20
  }

  /** The configured loading type, or infinite scrolling when it is empty. */
  function LoadingType(c: Config): string {
    if c.loadingType != "" then c.loadingType else "infiniteScroll"
  }

  /** The configured sort text, or ascending by Name when it is empty. */
  function DefaultSortBy(c: Config): string {
    if c.sortBy != "" then c.sortBy else "Name ASC"
  }

  /** The derived settings are always usable: the title is never empty, the page
      size never 0 and the loading type never empty. A configured title is shown
      as it is; without one the title names the object in the plural, after the
      record type when there is one. */
  lemma DerivedSettingsMeaning(c: Config)
    ensures ListTitle(c) != "" && PageSize(c) != 0 && LoadingType(c) != ""
    ensures c.listTitle != "" ==> ListTitle(c) == c.listTitle
    ensures c.listTitle == "" ==>
      var t := ListTitle(c);
      var plural := ObjectName(c) + "s";
      && |plural| <= |t| && t[|t| - |plural|..] == plural
      && (c.recordType != "" ==>
            |t| == |c.recordType| + 1 + |plural| && t[..|c.recordType| + 1] == c.recordType + " ")
      && (c.recordType == "" ==> t == plural)
  {
    if c.listTitle == "" && c.recordType != "" {
      var t := ListTitle(c);
      assert t == (c.recordType + " ") + (ObjectName(c) + "s");
    }
  }

  /** The parse of the configured sort text, or the worked-out parse of the
      default (DefaultSortFieldsMeaning proves the two agree). */
  function DefaultSortFields(c: Config): seq<SortField> {
    if c.sortBy != "" then ParseSortBy(c.sortBy) else [SortField("Name", Asc)]
  }

  /** The default sort is the parse of the configured or default sort text: without a
      configured sort the list starts sorted by Name ascending; with one, it
      starts with one entry per comma-separated part. */
  lemma {:induction false} DefaultSortFieldsMeaning(c: Config)
    ensures DefaultSortFields(c) == ParseSortBy(DefaultSortBy(c))
    ensures c.sortBy == "" ==> DefaultSortFields(c) == [SortField("Name", Asc)]
    ensures c.sortBy != "" ==> |DefaultSortFields(c)| == |Split(c.sortBy, ',')|
  {
    if c.sortBy == "" {
      var fields := [SortField("Name", Asc)];
      assert FormatEntry(fields[0]) == "Name ASC";
      assert FormatSortBy(fields) == "Name ASC";
      ParseFormatRoundTrip(fields);
    } else {
      ParseSortByMeaning(c.sortBy);
    }
  }
}

=== FILE: display.dfy ===
/** What a fetched record becomes on screen: its cells (the value of every
    column, with the Name fallback of Account and Contact lists and the display
    formatting), its row key and number, and the mobile card layout
    (setupMobileFields); plus the item count text. */
module Display {
  import opened Strings
  import opened Optional
  import opened Json
  import opened Settings
  import opened Columns

  /** The shown text of a cell. The currency, date, date-time and percent
      formatters depend on Intl, the locale and floating point and are kept
      abstract: `Formatted(kind, raw)` stands for their output on `raw`. */
  datatype DisplayValue = Shown(text: string) | Formatted(kind: string, raw: string)

  /** One `{ fieldName, label, value, isLink, displayValue }` cell. */
  datatype Cell = Cell(fieldName: string, labelText: string, value: string, isLink: bool, displayValue: DisplayValue)

  /** The properties setupMobileFields writes onto a record. */
  datatype MobileCard = MobileCard(
    primaryField: Cell,
    allFields: seq<Cell>,
    visibleFields: seq<Cell>,
    hiddenFields: seq<Cell>,
    isExpandable: bool,
    hasHiddenFields: bool,
    showExpandButton: bool,
    subtitle: Option<DisplayValue>)

  /** A mapped record; `id` is `record.Id` (None for undefined) and `card` is None
      when setupMobileFields left the record as it was. */
  datatype Row = Row(id: Option<Json>, key: string, rowNumber: int, cells: seq<Cell>, card: Option<MobileCard>)

  // ---------------------------------------------------------------------------
  // formatPhone and formatDisplayValue

  /** formatPhone(value): ten digits, wherever they stand among other characters,
      become "(ddd) ddd-dddd"; any other value is returned as it is. */
  function FormatPhone(value: string): string
  {
    var d := Digits(value);
    if |d| == 10 then PhoneLayout(d) else value
  }

  /** The "(ddd) ddd-dddd" layout of ten digits. */
  function PhoneLayout(d: string): string
    requires |d| == 10
  {
    "(" + d[..3] + ") " + d[3..6] + "-" + d[6..]
  }

  lemma DigitsOfLayout(d: string)
    requires |d| == 10 && forall i :: 0 <= i < |d| ==> IsDigit(d[i])
    ensures Digits(PhoneLayout(d)) == d
    ensures |PhoneLayout(d)| == 14
  {
    DigitsOfDigits(d[..3]);
    DigitsOfDigits(d[3..6]);
    DigitsOfDigits(d[6..]);
    assert Digits("(") == [] && Digits(") ") == [] && Digits("-") == [];
    DigitsAppend("(", d[..3]);
    DigitsAppend("(" + d[..3], ") ");
    DigitsAppend("(" + d[..3] + ") ", d[3..6]);
    DigitsAppend("(" + d[..3] + ") " + d[3..6], "-");
    DigitsAppend("(" + d[..3] + ") " + d[3..6] + "-", d[6..]);
    assert d[..3] + d[3..6] + d[6..] == d;
  }

  /** Formatting keeps the digits of the number, so it never changes which number
      is shown; a formatted number has the 14 characters of "(ddd) ddd-dddd" and
      formatting it again changes nothing. */
  lemma FormatPhoneMeaning(value: string)
    ensures Digits(FormatPhone(value)) == Digits(value)
    ensures |Digits(value)| == 10 ==> FormatPhone(value) == PhoneLayout(Digits(value))
    ensures |Digits(value)| == 10 ==> |FormatPhone(value)| == 14
    ensures |Digits(value)| != 10 ==> FormatPhone(value) == value
    ensures FormatPhone(FormatPhone(value)) == FormatPhone(value)
  {
    var d := Digits(value);
    if |d| == 10 {
      DigitsOfLayout(d);
    }
  }

  /** formatDisplayValue(value, column) for a cell value (always a string here). */
  function FormatDisplayValue(value: string, columnType: string): DisplayValue
  {
    if value == "" then Shown("")
    else if columnType == "currency" || columnType == "date" || columnType == "datetime" || columnType == "percent" then
      Formatted(columnType, value)
    else if columnType == "phone" then Shown(FormatPhone(value))
    else Shown(value)
  }

  /** An empty value shows as empty and nothing else does; the four locale
      formatters receive the value itself; a phone number is shown formatted,
      keeping its digits; every other type shows the value unchanged. */
  lemma FormatDisplayValueMeaning(value: string, columnType: string)
    ensures FormatDisplayValue(value, columnType) == Shown("") <==> value == ""
    ensures value != "" && columnType in {"currency", "date", "datetime", "percent"} ==>
      FormatDisplayValue(value, columnType) == Formatted(columnType, value)
    ensures FormatDisplayValue(value, columnType).Formatted? ==>
      columnType in {"currency", "date", "datetime", "percent"}
    ensures value != "" && columnType == "phone" ==>
      && FormatDisplayValue(value, columnType) == Shown(FormatPhone(value))
      && Digits(FormatDisplayValue(value, columnType).text) == Digits(value)
    ensures value != "" && columnType !in {"currency", "date", "datetime", "percent", "phone"} ==>
      FormatDisplayValue(value, columnType) == Shown(value)
  {
    FormatPhoneMeaning(value);
    if value != "" && columnType == "phone" && |Digits(value)| == 10 {
      assert |FormatPhone(value)| == 14;
    }
  }

  // ---------------------------------------------------------------------------
  // the value of a cell

  /** The Name of an Account or Contact row: the record's Name, or else
      "First Last", or else whichever of the two is present. */
  function PersonName(name: string, firstName: string, lastName: string): string
  {
    if name != "" then name
    else if firstName != "" && lastName != "" then firstName + " " + lastName
    else if firstName != "" then firstName
    else lastName
  }

  /** The Name is empty only when all three parts are; a non-empty Name wins;
      otherwise the result is built from the two parts alone. */
  lemma PersonNameMeaning(name: string, firstName: string, lastName: string)
    ensures PersonName(name, firstName, lastName) == "" <==> name == "" && firstName == "" && lastName == ""
    ensures name != "" ==> PersonName(name, firstName, lastName) == name
    ensures name == "" && firstName != "" && lastName != "" ==>
      var r := PersonName(name, firstName, lastName);
      r[..|firstName|] == firstName && r[|firstName|] == ' ' && r[|firstName| + 1..] == lastName
    ensures name == "" && (firstName == "" || lastName == "") ==>
      PersonName(name, firstName, lastName) == firstName + lastName
  {
    if name == "" && firstName != "" && lastName != "" {
      var r := firstName + " " + lastName;
      assert r[..|firstName|] == firstName;
      assert r[|firstName| + 1..] == lastName;
    }
  }

  /** The value a column's cell gets for a record. */
  function CellValue(record: Json, fieldName: string, accountOrContact: bool): string
  {
    if fieldName == "Name" && accountOrContact then
      PersonName(FieldValue(record, "Name"), FieldValue(record, "FirstName"), FieldValue(record, "LastName"))
    else FieldValue(record, fieldName)
  }

  /** The cell a column gets for a record. */
  function CellFor(record: Json, column: Column, accountOrContact: bool): Cell
  {
    var v := CellValue(record, column.fieldName, accountOrContact);
    Cell(column.fieldName, column.labelText, v, column.isLink, FormatDisplayValue(v, column.columnType))
  }

  /** The cells of a record: one per column, in column order. */
  function CellsFor(record: Json, columns: seq<Column>, accountOrContact: bool): (r: seq<Cell>)
    ensures |r| == |columns|
    ensures forall i :: 0 <= i < |columns| ==> r[i] == CellFor(record, columns[i], accountOrContact)
  {
    seq(|columns|, i requires 0 <= i < |columns| => CellFor(record, columns[i], accountOrContact))
  }

  // ---------------------------------------------------------------------------
  // setupMobileFields

  /** The field a card shows as its heading: Name, or a name mentioning title or
      subject. */
  predicate IsPrimaryName(fieldName: string) {
    fieldName == "Name" || Contains(Lower(fieldName), "title") || Contains(Lower(fieldName), "subject")
  }

  /** The field whose text a card shows below its heading. */
  predicate IsSubtitleName(fieldName: string) {
    Contains(Lower(fieldName), "id") || Contains(Lower(fieldName), "number")
  }

  /** findIndex of the primary cell, or -1. */
  function PrimaryIndex(cells: seq<Cell>): (r: int)
    ensures -1 <= r < |cells|
    ensures r >= 0 ==> IsPrimaryName(cells[r].fieldName)
    ensures forall j :: 0 <= j < |cells| && (r < 0 || j < r) ==> !IsPrimaryName(cells[j].fieldName)
  {
    if cells == [] then -1
    else if IsPrimaryName(cells[0].fieldName) then 0
    else
      var k := PrimaryIndex(cells[1..]);
      if k < 0 then -1 else k + 1
  }

  /** The position of the first cell with a subtitle name, or -1. */
  function SubtitleIndex(cells: seq<Cell>): (r: int)
    ensures -1 <= r < |cells|
    ensures r >= 0 ==> IsSubtitleName(cells[r].fieldName)
    ensures forall j :: 0 <= j < |cells| && (r < 0 || j < r) ==> !IsSubtitleName(cells[j].fieldName)
  {
    if cells == [] then -1
    else if IsSubtitleName(cells[0].fieldName) then 0
    else
      var k := SubtitleIndex(cells[1..]);
      if k < 0 then -1 else k + 1
  }

  /** The cells with a non-empty value, in their order. */
  function NonEmptyValues(cells: seq<Cell>): (r: seq<Cell>)
    ensures |r| <= |cells|
  {
    if cells == [] then []
    else (if cells[0].value != "" then [cells[0]] else []) + NonEmptyValues(cells[1..])
  }

  lemma {:induction false} NonEmptyValuesAppend(a: seq<Cell>, b: seq<Cell>)
    ensures NonEmptyValues(a + b) == NonEmptyValues(a) + NonEmptyValues(b)
  {
    if a != [] {
      assert (a + b)[1..] == a[1..] + b;
      NonEmptyValuesAppend(a[1..], b);
    } else {
      assert a + b == b;
    }
  }

  /** The filter keeps exactly the cells with a value, each as often as it occurs
      and in the order they come: filtering a concatenation filters each part, and
      one cell is kept exactly when it has a value. */
  lemma NonEmptyValuesMeaning(cells: seq<Cell>)
    ensures forall c :: c in NonEmptyValues(cells) <==> c in cells && c.value != ""
    ensures forall a, b :: NonEmptyValues(a + b) == NonEmptyValues(a) + NonEmptyValues(b)
    ensures forall c :: NonEmptyValues([c]) == if c.value != "" then [c] else []
  {
    NonEmptyValuesMembers(cells);
    forall a, b ensures NonEmptyValues(a + b) == NonEmptyValues(a) + NonEmptyValues(b) {
      NonEmptyValuesAppend(a, b);
    }
    forall c ensures NonEmptyValues([c]) == if c.value != "" then [c] else [] {
      assert [c][1..] == [];
    }
  }

  lemma {:induction false} NonEmptyValuesMembers(cells: seq<Cell>)
    ensures forall c :: c in NonEmptyValues(cells) <==> c in cells && c.value != ""
  {
    if cells != [] {
      NonEmptyValuesMembers(cells[1..]);
      assert cells == [cells[0]] + cells[1..];
    }
  }

  /** The position `end` means in `slice(0, end)` for a list of length n: a
      negative end counts from the back. */
  function SliceIndex(n: nat, end: int): (r: nat)
    ensures r <= n
  {
    if end < 0 then (if n + end < 0 then 0 else n + end)
    else if end < n then end else n
  }

  /** The configured number of visible mobile fields, or 2 when it is missing or zero. */
  function VisibleCount(c: Config): int {
    if c.visibleMobileFields != 0 then c.visibleMobileFields else 2
  }

  /** The position of the card's heading among the cells: the primary cell, or
      the first cell when there is none. */
  function HeadingIndex(cells: seq<Cell>): (r: nat)
    requires cells != []
    ensures r < |cells|
  {
    var p := PrimaryIndex(cells);
    if p >= 0 then p else 0
  }

  /** The cells other than the one at position h. */
  function Without(cells: seq<Cell>, h: nat): (r: seq<Cell>)
    requires h < |cells|
    ensures |r| == |cells| - 1
  {
    cells[..h] + cells[h + 1..]
  }

  /** setupMobileFields(record) on a record with these cells. */
  function MobileCardFor(cells: seq<Cell>, c: Config): Option<MobileCard>
  {
    if cells == [] then None
    else
      var h := HeadingIndex(cells);
      var all := NonEmptyValues(Without(cells, h));
      var cut := SliceIndex(|all|, VisibleCount(c));
      var hidden := all[cut..];
      var sub := SubtitleIndex(cells);
      Some(MobileCard(
        cells[h], all, all[..cut], hidden,
        c.isExpandable, |hidden| > 0, c.isExpandable && |hidden| > 0,
        if sub >= 0 && cells[sub].value != "" then Some(cells[sub].displayValue) else None))
  }

  /** The card layout: no card for a record without cells; otherwise the heading
      is the first primary cell (or the first cell), allFields is the other cells
      with a value in their order, the visible fields are the first
      `visibleMobileFields || 2` of them (a negative count dropping that many from
      the back) and the hidden ones the rest; the expand button shows exactly when
      the list is expandable and something is hidden; there is a subtitle exactly
      when the first id or number cell has a value, and it is that cell's shown
      text. */
  lemma MobileCardMeaning(cells: seq<Cell>, c: Config)
    ensures MobileCardFor(cells, c).None? <==> cells == []
    ensures cells != [] ==>
      var card := MobileCardFor(cells, c).value;
      var h := HeadingIndex(cells);
      var n := VisibleCount(c);
      var s := SubtitleIndex(cells);
      && card.primaryField == cells[h]
      && (PrimaryIndex(cells) < 0 ==> h == 0)
      && card.allFields == NonEmptyValues(Without(cells, h))
      && card.visibleFields + card.hiddenFields == card.allFields
      && (n > 0 ==> |card.visibleFields| == if n < |card.allFields| then n else |card.allFields|)
      && (n < 0 ==> |card.hiddenFields| == if -n < |card.allFields| then -n else |card.allFields|)
      && (forall x :: x in card.allFields <==>
            (exists i :: 0 <= i < |cells| && i != h && cells[i] == x) && x.value != "")
      && |card.allFields| < |cells|
      && (card.showExpandButton <==> c.isExpandable && card.hiddenFields != [])
      && card.hasHiddenFields == (card.hiddenFields != [])
      && (card.subtitle.Some? <==> s >= 0 && cells[s].value != "")
      && (card.subtitle.Some? ==> card.subtitle.value == cells[s].displayValue)
  {
    if cells != [] {
      var h := HeadingIndex(cells);
      var rest := Without(cells, h);
      var all := NonEmptyValues(rest);
      var cut := SliceIndex(|all|, VisibleCount(c));
      assert all[..cut] + all[cut..] == all;
      SliceCounts(|all|, VisibleCount(c));
      NonEmptyValuesMembers(rest);
      WithoutMeaning(cells, h);
    }
  }

  /** `slice(0, end)` keeps at most `end` entries in front for a positive end and
      leaves at most `-end` behind for a negative one. */
  lemma SliceCounts(n: nat, end: int)
    ensures end > 0 ==> SliceIndex(n, end) == if end < n then end else n
    ensures end < 0 ==> n - SliceIndex(n, end) == if -end < n then -end else n
  {
  }

  /** Removing position h keeps every other cell, in order: the cells before h
      stay where they are and those after it move up by one. */
  lemma WithoutMeaning(cells: seq<Cell>, h: nat)
    requires h < |cells|
    ensures forall i :: 0 <= i < |cells| - 1 ==>
      Without(cells, h)[i] == if i < h then cells[i] else cells[i + 1]
    ensures forall x :: x in Without(cells, h) <==>
      exists i :: 0 <= i < |cells| && i != h && cells[i] == x
  {
    var rest := Without(cells, h);
    forall x ensures x in rest <==> exists i :: 0 <= i < |cells| && i != h && cells[i] == x {
      if x in rest {
        var k :| 0 <= k < |rest| && rest[k] == x;
        if k < h {
          assert cells[k] == x;
        } else {
          assert cells[k + 1] == x;
        }
      }
      if exists i :: 0 <= i < |cells| && i != h && cells[i] == x {
        var i :| 0 <= i < |cells| && i != h && cells[i] == x;
        if i < h {
          assert rest[i] == x;
        } else {
          assert rest[i - 1] == x;
        }
      }
    }
  }

  // ---------------------------------------------------------------------------
  // mapping a fetched record

  /** `${record.Id}`: the template text of the Id. */
  function IdText(id: Option<Json>): string {
    if id.None? then "undefined" else Text(id.value)
  }

  /** The row the component builds from the record at position `index` of a page
      fetched at `offset`. */
  function RowFor(record: Json, offset: nat, index: nat, columns: seq<Column>, c: Config): Row
  {
    var cells := CellsFor(record, columns, IsAccountOrContact(c));
    Row(Index(record, "Id"), IdText(Index(record, "Id")) + "_" + NatToString(offset + index),
      offset + index + 1, cells, MobileCardFor(cells, c))
  }

  /** The mapping callback of loadRecords as it runs: one cell pushed per column,
      then the card layout written onto the record. */
  method BuildRow(record: Json, offset: nat, index: nat, columns: seq<Column>, c: Config) returns (row: Row)
    ensures row == RowFor(record, offset, index, columns, c)
  {
    var accountOrContact := c.objectApiName == Some("Account") || c.objectApiName == Some("Contact");
    var cells: seq<Cell> := [];
    if |columns| > 0 {
      var i := 0;
      while i < |columns|
        invariant 0 <= i <= |columns|
        invariant cells == CellsFor(record, columns[..i], accountOrContact)
      {
        var cell := BuildCell(record, columns[i], accountOrContact);
        CellsForStep(record, columns, i, accountOrContact);
        cells := cells + [cell];
        i := i + 1;
      }
      assert columns[..i] == columns;
    }
    var id := Index(record, "Id");
    row := Row(id, IdText(id) + "_" + NatToString(offset + index), offset + index + 1, cells, MobileCardFor(cells, c));
  }

  /** The body of the forEach over the columns: the field's text, or for the Name
      column of an Account or Contact the Name with its fallback to the first and
      last name, and its display form. */
  method BuildCell(record: Json, column: Column, accountOrContact: bool) returns (cell: Cell)
    ensures cell == CellFor(record, column, accountOrContact)
  {
    var fieldValue := GetFieldValue(record, column.fieldName);
    if column.fieldName == "Name" && accountOrContact {
      var nameValue := GetFieldValue(record, "Name");
      if nameValue == "" {
        var firstName := GetFieldValue(record, "FirstName");
        var lastName := GetFieldValue(record, "LastName");
        fieldValue :=
          if firstName != "" && lastName != "" then firstName + " " + lastName
          else if firstName != "" then firstName
          else if lastName != "" then lastName
          else nameValue;
      } else {
        fieldValue := nameValue;
      }
    }
    cell := Cell(column.fieldName, column.labelText, fieldValue, column.isLink,
                 FormatDisplayValue(fieldValue, column.columnType));
  }

  /** The cells for one more column follow those of the columns before it. */
  lemma CellsForStep(record: Json, columns: seq<Column>, i: nat, accountOrContact: bool)
    requires i < |columns|
    ensures CellsFor(record, columns[..i + 1], accountOrContact)
      == CellsFor(record, columns[..i], accountOrContact) + [CellFor(record, columns[i], accountOrContact)]
  {
    var l := CellsFor(record, columns[..i + 1], accountOrContact);
    var r := CellsFor(record, columns[..i], accountOrContact) + [CellFor(record, columns[i], accountOrContact)];
    forall j | 0 <= j < |l| ensures l[j] == r[j] {
      assert columns[..i + 1][j] == columns[j];
    }
  }

  /** The position is read back from the end of a key, so two rows at different
      positions never share a key. */
  lemma RowKeysDiffer(r1: Json, r2: Json, o1: nat, i1: nat, o2: nat, i2: nat,
                      columns: seq<Column>, c: Config)
    requires o1 + i1 != o2 + i2
    ensures RowFor(r1, o1, i1, columns, c).key != RowFor(r2, o2, i2, columns, c).key
  {
    var a := NatToString(o1 + i1);
    var b := NatToString(o2 + i2);
    var k1 := IdText(Index(r1, "Id")) + "_" + a;
    var k2 := IdText(Index(r2, "Id")) + "_" + b;
    if k1 == k2 {
      KeySuffix(IdText(Index(r1, "Id")), a, IdText(Index(r2, "Id")), b);
      NatToStringInjective(o1 + i1, o2 + i2);
    }
  }

  /** The digits at the end of a text. */
  function TrailingDigits(s: string): string
  {
    if s == [] || !IsDigit(s[|s| - 1]) then [] else TrailingDigits(s[..|s| - 1]) + [s[|s| - 1]]
  }

  /** The digits after an underscore are read back from the end. */
  lemma {:induction false} TrailingDigitsAfterUnderscore(p: string, a: string)
    requires forall i :: 0 <= i < |a| ==> IsDigit(a[i])
    ensures TrailingDigits(p + "_" + a) == a
  {
    var k := p + "_" + a;
    if a == [] {
      assert k[|k| - 1] == '_';
    } else {
      var a' := a[..|a| - 1];
      assert k[..|k| - 1] == p + "_" + a';
      TrailingDigitsAfterUnderscore(p, a');
      assert a' + [a[|a| - 1]] == a;
    }
  }

  /** Equal keys have equal positions: the digits after the last underscore. */
  lemma KeySuffix(p: string, a: string, q: string, b: string)
    requires forall i :: 0 <= i < |a| ==> IsDigit(a[i])
    requires forall i :: 0 <= i < |b| ==> IsDigit(b[i])
    requires p + "_" + a == q + "_" + b
    ensures a == b
  {
    TrailingDigitsAfterUnderscore(p, a);
    TrailingDigitsAfterUnderscore(q, b);
  }

  /** The rows of a page fetched at `offset`. */
  function RowsFor(page: seq<Json>, offset: nat, columns: seq<Column>, c: Config): (r: seq<Row>)
    ensures |r| == |page|
    ensures forall i :: 0 <= i < |page| ==> r[i] == RowFor(page[i], offset, i, columns, c)
  {
    seq(|page|, i requires 0 <= i < |page| => RowFor(page[i], offset, i, columns, c))
  }

  /** The records of a fetched page mapped one by one, as loadRecords does; the
      mapping stops at a null record, on which it throws. */
  method MapRecords(page: seq<Json>, offset: nat, columns: seq<Column>, c: Config) returns (rows: seq<Row>, failed: bool)
    ensures failed <==> JNull in page
    ensures !failed ==> rows == RowsFor(page, offset, columns, c)
  {
    rows := [];
    failed := false;
    var i := 0;
    while i < |page| && !failed
      invariant 0 <= i <= |page|
      invariant failed ==> JNull in page
      invariant !failed ==> JNull !in page[..i] && rows == RowsFor(page[..i], offset, columns, c)
      decreases |page| - i, !failed
    {
      if page[i] == JNull {
        failed := true;
      } else {
        var row := BuildRow(page[i], offset, i, columns, c);
        RowsForStep(page, i, offset, columns, c);
        rows := rows + [row];
        i := i + 1;
      }
    }
    if !failed {
      assert page[..i] == page;
    }
  }

  /** The rows of one more record of a page follow those of the records before it. */
  lemma RowsForStep(page: seq<Json>, i: nat, offset: nat, columns: seq<Column>, c: Config)
    requires i < |page|
    ensures RowsFor(page[..i + 1], offset, columns, c)
      == RowsFor(page[..i], offset, columns, c) + [RowFor(page[i], offset, i, columns, c)]
  {
    var l := RowsFor(page[..i + 1], offset, columns, c);
    var r := RowsFor(page[..i], offset, columns, c) + [RowFor(page[i], offset, i, columns, c)];
    forall j | 0 <= j < |l| ensures l[j] == r[j] {
      assert page[..i + 1][j] == page[j];
    }
  }

  // ---------------------------------------------------------------------------
  // itemsDisplayText

  /** The count followed by "+ items" while more can be loaded, and by " items" after. */
  function ItemsText(shown: nat, hasMore: bool): string {
    NatToString(shown) + (if hasMore then "+ items" else " items")
  }

  /** The text starts with the count in decimal, which can be read back, and says
      "+" exactly when more records can be loaded. */
  lemma ItemsTextMeaning(shown: nat, hasMore: bool)
    ensures var t := ItemsText(shown, hasMore);
      var n := |NatToString(shown)|;
      && t[..n] == NatToString(shown)
      && DecimalValue(t[..n]) == shown
      && (t[n] == '+' <==> hasMore)
      && t[|t| - 6..] == " items"
  {
    NatToStringRoundTrip(shown);
    var t := ItemsText(shown, hasMore);
    assert t[..|NatToString(shown)|] == NatToString(shown);
  }
}

=== FILE: json.dfy ===
/** The JSON-like values the record service returns, and the dotted-path field
    lookup the list view uses to read a cell out of a record (getFieldValue). */
module Json {
  import opened Strings
  import opened Optional

  /** A record value. Arrays and fractional numbers are not modelled. */
  datatype Json =
    | JNull
    | JStr(s: string)
    | JNum(n: int)
    | JBool(b: bool)
    | JObj(fields: map<string, Json>)

  /** JavaScript truthiness of a value. */
  predicate Truthy(v: Json) {
    match v
    case JNull => false
    case JStr(s) => s != ""
    case JNum(n) => n != 0
    case JBool(b) => b
    case JObj(_) => true
  }

  /** The property `key` of an object value, None standing for undefined. Properties
      of strings, numbers and booleans (such as length) are not modelled. */
  function Index(v: Json, key: string): (r: Option<Json>)
    ensures r.Some? <==> v.JObj? && key in v.fields
  {
    match v
    case JObj(fields) => if key in fields then Some(fields[key]) else None
    case _ => None
  }

  /** String(v) for a value that is neither null nor undefined. */
  function Text(v: Json): string {
    match v
    case JNull => "null"
    case JStr(s) => s
    case JNum(n) => IntToString(n)
    case JBool(b) => if b then "true" else "false"
    case JObj(_) => "[object Object]"
  }

  /** Null or undefined, the values `x != null` rejects. */
  predicate IsNullish(o: Option<Json>) {
    o.None? || o.value.JNull?
  }

  /** The string conversion of a value, or the empty string for null and undefined. */
  function ValueText(o: Option<Json>): (r: string)
    ensures IsNullish(o) ==> r == ""
  {
    if IsNullish(o) then "" else Text(o.value)
  }

  /** Following the path one property at a time, stopping at the first null or
      undefined value, which is then the result. */
  function Walk(v: Json, path: seq<string>): Option<Json>
  {
    if path == [] then Some(v)
    else
      var next := Index(v, path[0]);
      if IsNullish(next) then next else Walk(next.value, path[1..])
  }

  /** getFieldValue(record, fieldName): the text of the field, '' when the record
      or the name is falsy or the value is null or undefined; a name holding a dot
      is a path through related records. */
  function FieldValue(record: Json, fieldName: string): string
  {
    if !Truthy(record) || fieldName == "" then ""
    else if '.' in fieldName then ValueText(Walk(record, Split(fieldName, '.')))
    else ValueText(Index(record, fieldName))
  }

  /** A null or undefined value along the path makes the whole lookup ''. */
  lemma {:induction false} WalkStopsAtNullish(v: Json, path: seq<string>, k: nat)
    requires k < |path|
    requires Walk(v, path[..k]).Some? && !Walk(v, path[..k]).value.JNull?
    requires IsNullish(Index(Walk(v, path[..k]).value, path[k]))
    ensures ValueText(Walk(v, path)) == ""
  {
    if k > 0 {
      assert path[..k][0] == path[0] && path[..k][1..] == path[1..][..k - 1];
      WalkStopsAtNullish(Index(v, path[0]).value, path[1..], k - 1);
    }
  }

  /** The two branches of getFieldValue agree: a name without a dot is read as a
      path of one step. */
  lemma FieldValueIsWalk(record: Json, fieldName: string)
    ensures FieldValue(record, fieldName) ==
      if !Truthy(record) || fieldName == "" then "" else ValueText(Walk(record, Split(fieldName, '.')))
  {
    if '.' !in fieldName {
      SplitSingle(fieldName, '.');
      assert Walk(record, [fieldName]) == Index(record, fieldName) by {
        var next := Index(record, fieldName);
        if !IsNullish(next) {
          assert Walk(next.value, []) == next;
        }
      }
    }
  }

  /** getFieldValue as the source runs it: a loop that steps `value` along the
      parts of the name and breaks at the first null or undefined. */
  method GetFieldValue(record: Json, fieldName: string) returns (r: string)
    ensures r == FieldValue(record, fieldName)
  {
    if !Truthy(record) || fieldName == "" {
      return "";
    }
    if '.' !in fieldName {
      var direct := Index(record, fieldName);
      return if IsNullish(direct) then "" else Text(direct.value);
    }
    var parts := Split(fieldName, '.');
    var value: Option<Json> := Some(record);
    var i := 0;
    while i < |parts|
      invariant 0 <= i <= |parts|
      invariant !IsNullish(value)
      invariant Walk(record, parts) == Walk(value.value, parts[i..])
    {
      assert parts[i..][0] == parts[i] && parts[i..][1..] == parts[i + 1..];
      value := Index(value.value, parts[i]);
      if IsNullish(value) {
        return "";
      }
      i := i + 1;
    }
    r := Text(value.value);
  }
}

=== FILE: listview.dfy ===
/** The RecordListView component: its state, and the handlers that change it
    (URL selection, loading the configuration, setting up columns, paging
    records in, sorting, searching, refreshing and expanding cards). The remote
    calls are replaced by their outcomes, passed in as parameters. */
module ListView {
  import opened Strings
  import opened Optional
  import opened Json
  import opened Sorting
  import opened Settings
  import opened Columns
  import opened Url
  import opened Display

  /** One page as getRecords returns it. */
  datatype Page = Page(records: seq<Json>, hasMore: bool, queryLocatorId: Option<string>)

  /** The outcome of getRecords: a page, or a rejection whose `body.message` is
      given ("" when it has none). */
  datatype Fetch = Fetched(page: Page) | FetchFailed(bodyMessage: string)

  /** The outcome of getConfig. */
  datatype ConfigOutcome = ConfigLoaded(config: Config) | ConfigFailed(bodyMessage: string)

  /** The arguments loadRecords passes to getRecords. */
  datatype Request = Request(
    configName: string,
    pageSize: int,
    offset: nat,
    searchTerm: string,
    sortFields: seq<SortField>,
    queryLocatorId: Option<string>,
    parentRecordId: string,
    relatedObjectApiName: string)

  /** A displayed record: the mapped record and whether its card is expanded. */
  datatype DisplayedRow = DisplayedRow(row: Row, isExpanded: bool)


  const FetchErrorText := "Error fetching records"

  /** The message of a failed call: its body's message when there is one,
      otherwise the fixed text. */
  function FetchError(bodyMessage: string): (r: string)
    ensures r != ""
    ensures bodyMessage != "" ==> r == bodyMessage
    ensures bodyMessage == "" ==> r == FetchErrorText
  {
    if bodyMessage != "" then bodyMessage else FetchErrorText
  }

  /** A fetch whose page maps without error; mapping a null record throws. */
  predicate Succeeds(fetch: Fetch) {
    fetch.Fetched? && JNull !in fetch.page.records
  }

  /** Whether a record's card is expanded: the card ids are the strings the cards
      carry, so only a string Id can match one. */
  predicate IsExpanded(id: Option<Json>, ids: set<string>) {
    id.Some? && id.value.JStr? && id.value.s in ids
  }

  /** The rows with their expansion flags. */
  function Project(rows: seq<Row>, ids: set<string>): (r: seq<DisplayedRow>)
    ensures |r| == |rows|
    ensures forall i :: 0 <= i < |rows| ==> r[i] == DisplayedRow(rows[i], IsExpanded(rows[i].id, ids))
  {
    seq(|rows|, i requires 0 <= i < |rows| => DisplayedRow(rows[i], IsExpanded(rows[i].id, ids)))
  }

  /** The displayed rows with their expansion flags recomputed. */
  function Reproject(shown: seq<DisplayedRow>, ids: set<string>): (r: seq<DisplayedRow>)
    ensures |r| == |shown|
    ensures forall i :: 0 <= i < |shown| ==> r[i] == DisplayedRow(shown[i].row, IsExpanded(shown[i].row.id, ids))
  {
    seq(|shown|, i requires 0 <= i < |shown| => DisplayedRow(shown[i].row, IsExpanded(shown[i].row.id, ids)))
  }

  /** Re-projecting a projection recomputes every flag from the same rows. */
  lemma ReprojectProject(rows: seq<Row>, before: set<string>, after: set<string>)
    ensures Reproject(Project(rows, before), after) == Project(rows, after)
  {
  }

  lemma {:induction false} ProjectAppend(a: seq<Row>, b: seq<Row>, ids: set<string>)
    ensures Project(a + b, ids) == Project(a, ids) + Project(b, ids)
  {
    assert forall i :: 0 <= i < |a + b| ==>
      Project(a + b, ids)[i] == (Project(a, ids) + Project(b, ids))[i];
  }

  /** The columns with the icons of the current sort fields. */
  function WithIcons(columns: seq<Column>, sortFields: seq<SortField>): (r: seq<Column>)
    ensures |r| == |columns|
    ensures forall i :: 0 <= i < |columns| ==>
      r[i] == columns[i].(sortIcon := SortIcon(sortFields, columns[i].fieldName))
  {
    if columns == [] then []
    else [columns[0].(sortIcon := SortIcon(sortFields, columns[0].fieldName))] + WithIcons(columns[1..], sortFields)
  }

  /** Column i is the first one named `name`. */
  predicate FirstNamedAt(columns: seq<Column>, name: string, i: int) {
    && 0 <= i < |columns|
    && columns[i].fieldName == name
    && forall j :: 0 <= j < i ==> columns[j].fieldName != name
  }

  /** The first column named `name`, if any. */
  function FindColumn(columns: seq<Column>, name: string): (r: Option<Column>)
    ensures r.Some? ==> exists i :: FirstNamedAt(columns, name, i) && columns[i] == r.value
    ensures r.None? ==> forall i :: 0 <= i < |columns| ==> columns[i].fieldName != name
  {
    if columns == [] then None
    else if columns[0].fieldName == name then
      assert FirstNamedAt(columns, name, 0);
      Some(columns[0])
    else
      var rest := FindColumn(columns[1..], name);
      assert rest.Some? ==> exists i :: FirstNamedAt(columns, name, i) && columns[i] == rest.value by {
        if rest.Some? {
          var i :| FirstNamedAt(columns[1..], name, i) && columns[1..][i] == rest.value;
          assert FirstNamedAt(columns, name, i + 1) by {
            forall j | 0 <= j < i + 1 ensures columns[j].fieldName != name {
              if j > 0 { assert columns[j] == columns[1..][j - 1]; }
            }
          }
        }
      }
      rest
  }

  /** Whether a column of that name exists and the first one is sortable. */
  predicate Sortable(columns: seq<Column>, name: string) {
    var column := FindColumn(columns, name);
    column.Some? && column.value.sortable
  }

  /** Record i has row number i + 1 and the key `${Id}_${i}`. */
  predicate Numbered(records: seq<Row>) {
    forall i :: 0 <= i < |records| ==>
      records[i].rowNumber == i + 1 && records[i].key == IdText(records[i].id) + "_" + NatToString(i)
  }

  /** A page fetched at the current length continues the numbering. */
  lemma NumberedAppend(records: seq<Row>, page: seq<Json>, columns: seq<Column>, c: Config)
    requires Numbered(records)
    ensures Numbered(records + RowsFor(page, |records|, columns, c))
  {
    var rows := RowsFor(page, |records|, columns, c);
    var all := records + rows;
    forall i | 0 <= i < |all|
      ensures all[i].rowNumber == i + 1 && all[i].key == IdText(all[i].id) + "_" + NatToString(i)
    {
      if i >= |records| {
        assert all[i] == rows[i - |records|];
      } else {
        assert all[i] == records[i];
      }
    }
  }

  /** Numbered records never share a key, whatever their Ids. */
  lemma NumberedKeysDistinct(records: seq<Row>)
    requires Numbered(records)
    ensures forall i, j :: 0 <= i < j < |records| ==> records[i].key != records[j].key
  {
    forall i, j | 0 <= i < j < |records|
      ensures records[i].key != records[j].key
    {
      if records[i].key == records[j].key {
        KeySuffix(IdText(records[i].id), NatToString(i), IdText(records[j].id), NatToString(j));
        NatToStringInjective(i, j);
      }
    }
  }

  /** The message the catch block of loadRecords records for a fetch that does
      not succeed. */
  function FailureText(fetch: Fetch): (r: string)
    ensures r != ""
    ensures fetch.FetchFailed? && fetch.bodyMessage != "" ==> r == fetch.bodyMessage
    ensures fetch.FetchFailed? && fetch.bodyMessage == "" ==> r == FetchErrorText
    ensures fetch.Fetched? ==> r == FetchErrorText
  {
    if fetch.FetchFailed? then FetchError(fetch.bodyMessage) else FetchErrorText
  }

  /** The expanded-card ids after a click on the card of `recordId`. */
  function Toggled(ids: set<string>, recordId: string): (r: set<string>)
    ensures recordId in r <==> recordId !in ids
    ensures forall other :: other != recordId ==> (other in r <==> other in ids)
  {
    if recordId in ids then ids - {recordId} else ids + {recordId}
  }

  /** A click flips the expansion of exactly the cards whose Id is the clicked id. */
  lemma ToggleFlipsClicked(ids: set<string>, recordId: string, id: Option<Json>)
    ensures IsExpanded(id, Toggled(ids, recordId)) ==
      if id == Some(JStr(recordId)) then !IsExpanded(id, ids) else IsExpanded(id, ids)
  {
  }

  /** The component. */
  class RecordListView {
    var records: seq<Row>
    var parentRecordId: string
    var relatedObjectApiName: string
    var isRelatedListView: bool
    var columns: seq<Column>
    var error: Option<string>
    var isLoading: bool
    var isLoadingMore: bool
    var searchTerm: string
    var sortFields: seq<SortField>
    var config: Config
    var listTitle: string
    var displayedRecords: seq<DisplayedRow>
    var queryLocatorId: Option<string>
    var pageSize: int
    var currentOffset: nat
    var hasMoreRecords: bool
    var loadingType: string
    var expandedCardIds: set<string>
    var configName: string
    var isScrollLoading: bool

    /** The invariant every handler keeps: the displayed records are the records
        with their expansion flags, the offset counts the records, and the records
        are numbered from 1 in order. */
    predicate Valid()
      reads `displayedRecords, `records, `expandedCardIds, `currentOffset
    {
      && displayedRecords == Project(records, expandedCardIds)
      && currentOffset == |records|
      && Numbered(records)
    }

    /** Whether `loadRecords(reset)` gets past its two guards. */
    predicate CanLoad(reset: bool)
      reads `hasMoreRecords, `isScrollLoading
    {
      reset || (hasMoreRecords && !isScrollLoading)
    }

    /** The state the synchronous part of `loadRecords(true)` leaves. */
    predicate JustReset()
      reads `isLoading, `currentOffset, `records, `displayedRecords, `queryLocatorId,
            `hasMoreRecords, `isScrollLoading, `error
    {
      && isLoading && currentOffset == 0 && records == [] && displayedRecords == []
      && queryLocatorId.None? && hasMoreRecords && !isScrollLoading && error.None?
    }

    /** The arguments of the getRecords call. */
    function CurrentRequest(): Request
      reads `configName, `pageSize, `currentOffset, `searchTerm, `sortFields,
            `queryLocatorId, `parentRecordId, `relatedObjectApiName
    {
      Request(configName, pageSize, currentOffset, searchTerm, sortFields,
              queryLocatorId, parentRecordId, relatedObjectApiName)
    }

    /** The field initialisers. */
    constructor()
      ensures records == [] && displayedRecords == [] && columns == [] && sortFields == []
      ensures parentRecordId == "" && relatedObjectApiName == "" && !isRelatedListView
      ensures error.None? && !isLoading && !isLoadingMore && !isScrollLoading
      ensures searchTerm == "" && config == EmptyConfig && listTitle == "Records"
      ensures queryLocatorId.None? && pageSize == 20 && currentOffset == 0 && hasMoreRecords
      ensures loadingType == "infiniteScroll" && expandedCardIds == {} && configName == DefaultConfigName
      ensures Valid()
    {
      records := [];
      parentRecordId := "";
      relatedObjectApiName := "";
      isRelatedListView := false;
      columns := [];
      error := None;
      isLoading := false;
      isLoadingMore := false;
      searchTerm := "";
      sortFields := [];
      config := EmptyConfig;
      listTitle := "Records";
      displayedRecords := [];
      queryLocatorId := None;
      pageSize := 20;
      currentOffset := 0;
      hasMoreRecords := true;
      loadingType := "infiniteScroll";
      expandedCardIds := {};
      configName := DefaultConfigName;
      isScrollLoading := false;
    }

    /** extractConfigNameFromUrl, with the page URL passed in. */
    method ExtractConfigNameFromUrl(url: string)
      modifies `configName, `isRelatedListView, `parentRecordId, `relatedObjectApiName
      ensures var sel := SelectFromUrl(url);
        && configName == sel.configName
        && isRelatedListView == sel.isRelatedListView
        && (sel.relatedIds.Some? ==>
              parentRecordId == sel.relatedIds.value.parentRecordId
              && relatedObjectApiName == sel.relatedIds.value.relatedObjectApiName)
        && (sel.relatedIds.None? ==> unchanged(`parentRecordId, `relatedObjectApiName))
      ensures !isRelatedListView
    {
      var urlParts := Split(url, '/');
      if RelatedListSegment in urlParts {
        var recordIdIndex := IndexOfSegment(urlParts, RelatedListSegment) + 1;
        parentRecordId := SegmentOrEmpty(urlParts, recordIdIndex);
        relatedObjectApiName := BeforeQuery(SegmentOrEmpty(urlParts, recordIdIndex + 1));
        // String.isNotBlank is not a function: the call throws and the catch
        // block takes over.
        configName := DefaultConfigName;
        isRelatedListView := false;
      } else {
        var pageName := BeforeQuery(urlParts[|urlParts| - 1]);
        configName := if pageName != "" && pageName != "s" then pageName else DefaultConfigName;
        isRelatedListView := false;
      }
    }

    /** setupColumns: with configured fields, the Name column of Account and
        Contact lists and one column per usable entry, in order; without, nothing
        changes. */
    method SetupColumns()
      modifies `columns
      ensures |config.fields| > 0 ==> columns == ConfiguredColumns(config, sortFields)
      ensures |config.fields| == 0 ==> columns == old(columns)
    {
      var fields := config.fields;
      if |fields| > 0 {
        var acct := IsAccountOrContact(config);
        var sf := sortFields;
        var cols: seq<Column> := if acct then [NameColumn(sf)] else [];
        var i := 0;
        while i < |fields|
          invariant 0 <= i <= |fields|
          invariant cols == (if acct then [NameColumn(sf)] else []) + Pushed(fields[..i], acct, sf)
        {
          var pushed := ColumnFor(fields[i], acct, sf);
          PushedStep(fields, i, acct, sf);
          if pushed.Some? {
            cols := cols + [pushed.value];
          }
          i := i + 1;
        }
        assert fields[..i] == fields;
        columns := Named(cols);
      }
    }

    /** The synchronous part of loadRecords(reset), up to the getRecords call;
        returns the call's arguments, or None when a guard returns early. */
    method StartLoad(reset: bool) returns (request: Option<Request>)
      modifies `isLoading, `isLoadingMore, `isScrollLoading, `currentOffset, `records,
               `displayedRecords, `queryLocatorId, `hasMoreRecords, `error
      ensures !old(CanLoad(reset)) ==>
        && request.None?
        && unchanged(`isLoading, `isLoadingMore, `isScrollLoading, `currentOffset, `records,
                     `displayedRecords, `queryLocatorId, `hasMoreRecords, `error)
      ensures old(CanLoad(reset)) && reset ==> JustReset() && isLoadingMore == old(isLoadingMore)
      ensures old(CanLoad(reset)) && !reset ==>
        && isLoadingMore && isScrollLoading && error.None?
        && unchanged(`isLoading, `currentOffset, `records, `displayedRecords, `queryLocatorId, `hasMoreRecords)
      ensures old(CanLoad(reset)) ==> request == Some(CurrentRequest())
      ensures old(CanLoad(reset)) && !reset ==> ShowInfiniteScrollLoader()
      ensures old(Valid()) || reset ==> Valid()
    {
      if reset {
        isLoading := true;
        currentOffset := 0;
        records := [];
        displayedRecords := [];
        queryLocatorId := None;
        hasMoreRecords := true;
        isScrollLoading := false;
        error := None;
        request := Some(CurrentRequest());
      } else if !hasMoreRecords || isScrollLoading {
        // the two early returns of loadRecords
        request := None;
      } else {
        isLoadingMore := true;
        isScrollLoading := true;
        error := None;
        request := Some(CurrentRequest());
      }
    }

    /** The catch block of loadRecords. */
    method Fail(reset: bool, message: string)
      modifies `error, `records, `displayedRecords, `hasMoreRecords
      ensures error == Some(message) && !hasMoreRecords
      ensures reset ==> records == [] && displayedRecords == []
      ensures !reset ==> unchanged(`records, `displayedRecords)
      ensures old(Valid()) && (reset ==> old(currentOffset) == 0) ==> Valid()
    {
      error := Some(message);
      if reset {
        records := [];
        displayedRecords := [];
      }
      hasMoreRecords := false;
    }

    /** The try block of loadRecords after mapping: the rows replace the records
        or follow them. */
    method Accept(reset: bool, result: Page, mapped: seq<Row>)
      requires mapped == RowsFor(result.records, currentOffset, columns, config)
      modifies `records, `displayedRecords, `hasMoreRecords, `currentOffset
      ensures records == (if reset then [] else old(records)) + mapped
      ensures displayedRecords == (if reset then [] else old(displayedRecords)) + Project(mapped, expandedCardIds)
      ensures hasMoreRecords == result.hasMore
      ensures currentOffset == old(currentOffset) + |result.records|
      ensures old(Valid()) && (reset ==> old(currentOffset) == 0) ==> Valid()
    {
      var shown := Project(mapped, expandedCardIds);
      if reset {
        records := mapped;
        displayedRecords := shown;
      } else {
        records := records + mapped;
        displayedRecords := displayedRecords + shown;
      }
      hasMoreRecords := result.hasMore;
      currentOffset := currentOffset + |result.records|;
      if old(Valid()) && (reset ==> old(currentOffset) == 0) {
        NumberedAppend(old(records), result.records, columns, config);
        ProjectAppend(old(records), mapped, expandedCardIds);
        if reset {
          assert old(records) == [];
        }
      }
    }

    /** The rest of loadRecords(reset) once getRecords has settled: the rows of
        the page replace the records or follow them, or the catch block runs;
        the loading flags go down in any case. */
    method FinishLoad(reset: bool, fetch: Fetch)
      modifies `isLoading, `isLoadingMore, `isScrollLoading, `currentOffset, `records,
               `displayedRecords, `queryLocatorId, `hasMoreRecords, `error
      ensures !isLoading && !isLoadingMore && !isScrollLoading && !ShowInfiniteScrollLoader()
      ensures fetch.FetchFailed? ==>
        && error == Some(FetchError(fetch.bodyMessage))
        && unchanged(`queryLocatorId)
      ensures fetch.Fetched? ==> queryLocatorId == fetch.page.queryLocatorId
      ensures fetch.Fetched? && !Succeeds(fetch) ==> error == Some(FetchErrorText)
      ensures !Succeeds(fetch) ==>
        && !hasMoreRecords && currentOffset == old(currentOffset)
        && (reset ==> records == [] && displayedRecords == [])
        && (!reset ==> records == old(records) && displayedRecords == old(displayedRecords))
      ensures Succeeds(fetch) ==>
        var rows := RowsFor(fetch.page.records, old(currentOffset), columns, config);
        && records == (if reset then [] else old(records)) + rows
        && displayedRecords == (if reset then [] else old(displayedRecords)) + Project(rows, expandedCardIds)
        && hasMoreRecords == fetch.page.hasMore
        && currentOffset == old(currentOffset) + |fetch.page.records|
        && error == old(error)
      ensures old(Valid()) && (reset ==> old(currentOffset) == 0) ==> Valid()
    {
      // the finally block; nothing below reads the three flags, so clearing them
      // first leaves the same state
      isLoading := false;
      isLoadingMore := false;
      isScrollLoading := false;
      if fetch.FetchFailed? {
        Fail(reset, FetchError(fetch.bodyMessage));
      } else {
        TakePage(reset, fetch.page);
      }
    }

    /** The try block of loadRecords after getRecords answered with `result`: the
        locator is kept, then the rows of the page replace the records or follow
        them, unless mapping a null record throws. */
    method TakePage(reset: bool, result: Page)
      modifies `currentOffset, `records, `displayedRecords, `queryLocatorId, `hasMoreRecords, `error
      ensures queryLocatorId == result.queryLocatorId
      ensures JNull in result.records ==>
        && error == Some(FetchErrorText)
        && !hasMoreRecords && currentOffset == old(currentOffset)
        && (reset ==> records == [] && displayedRecords == [])
        && (!reset ==> records == old(records) && displayedRecords == old(displayedRecords))
      ensures JNull !in result.records ==>
        var rows := RowsFor(result.records, old(currentOffset), columns, config);
        && records == (if reset then [] else old(records)) + rows
        && displayedRecords == (if reset then [] else old(displayedRecords)) + Project(rows, expandedCardIds)
        && hasMoreRecords == result.hasMore
        && currentOffset == old(currentOffset) + |result.records|
        && error == old(error)
      ensures old(Valid()) && (reset ==> old(currentOffset) == 0) ==> Valid()
    {
      queryLocatorId := result.queryLocatorId;
      var mapped, failed := MapRecords(result.records, currentOffset, columns, config);
      if failed {
        Fail(reset, FetchErrorText);
      } else {
        Accept(reset, result, mapped);
      }
    }

    /** The state a settled loadRecords leaves, starting from `base` records at
        offset `baseOffset` with query locator `baseLocator`: the loading flags
        are down; a page that maps adds its rows, numbered on from the offset, and
        its locator and has-more flag; otherwise the catch block recorded its
        message and no more records are offered. */
    predicate LoadedFrom(fetch: Fetch, base: seq<Row>, baseOffset: nat, baseLocator: Option<string>)
      reads `isLoading, `isLoadingMore, `isScrollLoading, `currentOffset, `records,
            `queryLocatorId, `hasMoreRecords, `error, `columns, `config
    {
      && !isLoading && !isLoadingMore && !isScrollLoading
      && (Succeeds(fetch) ==>
            && records == base + RowsFor(fetch.page.records, baseOffset, columns, config)
            && currentOffset == baseOffset + |fetch.page.records|
            && hasMoreRecords == fetch.page.hasMore
            && queryLocatorId == fetch.page.queryLocatorId
            && error.None?)
      && (!Succeeds(fetch) ==>
            && records == base
            && currentOffset == baseOffset
            && !hasMoreRecords
            && queryLocatorId == (if fetch.Fetched? then fetch.page.queryLocatorId else baseLocator)
            && error == Some(FailureText(fetch)))
    }

    /** loadRecords(reset) awaited: the guards, then getRecords answered by
        `fetch`, then the continuation. Returns the getRecords arguments, or None
        when a guard returns early and nothing changes. */
    method LoadRecords(reset: bool, fetch: Fetch) returns (request: Option<Request>)
      modifies `isLoading, `isLoadingMore, `isScrollLoading, `currentOffset, `records,
               `displayedRecords, `queryLocatorId, `hasMoreRecords, `error
      ensures !old(CanLoad(reset)) ==>
        && request.None?
        && unchanged(`isLoading, `isLoadingMore, `isScrollLoading, `currentOffset, `records,
                     `displayedRecords, `queryLocatorId, `hasMoreRecords, `error)
      ensures old(CanLoad(reset)) ==>
        && request == Some(Request(configName, pageSize, if reset then 0 else old(currentOffset),
                                   searchTerm, sortFields,
                                   if reset then None else old(queryLocatorId),
                                   parentRecordId, relatedObjectApiName))
        && LoadedFrom(fetch, if reset then [] else old(records),
                      if reset then 0 else old(currentOffset),
                      if reset then None else old(queryLocatorId))
      ensures old(Valid()) || (reset && old(CanLoad(reset))) ==> Valid()
    {
      request := StartLoad(reset);
      if request.Some? {
        FinishLoad(reset, fetch);
      }
    }

    /** loadConfig with the getConfig answer and the getRecords answer passed in:
        on success the derived settings, the parsed default sort, the columns and
        a reset load; on failure the configuration error and an empty list set-up. */
    method LoadConfig(outcome: ConfigOutcome, fetch: Fetch) returns (request: Option<Request>)
      modifies `config, `listTitle, `pageSize, `loadingType, `sortFields, `columns,
               `isLoading, `isLoadingMore, `isScrollLoading, `currentOffset, `records,
               `displayedRecords, `queryLocatorId, `hasMoreRecords, `error
      ensures outcome.ConfigFailed? ==>
        && request.None?
        && error == Some(if outcome.bodyMessage != "" then outcome.bodyMessage
                         else "Error loading configuration for " + configName)
        && config == EmptyConfig && columns == [] && listTitle == "Records"
        && unchanged(`pageSize, `loadingType, `sortFields, `isLoading, `isLoadingMore,
                     `isScrollLoading, `currentOffset, `records, `displayedRecords,
                     `queryLocatorId, `hasMoreRecords)
      ensures outcome.ConfigLoaded? ==>
        var c := outcome.config;
        && config == c
        && listTitle == ListTitle(c) && pageSize == PageSize(c) && loadingType == LoadingType(c)
        && sortFields == DefaultSortFields(c)
        && columns == (if |c.fields| > 0 then ConfiguredColumns(c, sortFields) else old(columns))
        && request == Some(Request(configName, pageSize, 0, searchTerm, sortFields, None,
                                   parentRecordId, relatedObjectApiName))
        && LoadedFrom(fetch, [], 0, None)
      ensures old(Valid()) || outcome.ConfigLoaded? ==> Valid()
    {
      if outcome.ConfigFailed? {
        ConfigFailure(outcome.bodyMessage);
        request := None;
      } else {
        request := Configure(outcome.config, fetch);
      }
    }

    /** The try block of loadConfig once getConfig answered with `c`. */
    method Configure(c: Config, fetch: Fetch) returns (request: Option<Request>)
      modifies `config, `listTitle, `pageSize, `loadingType, `sortFields, `columns,
               `isLoading, `isLoadingMore, `isScrollLoading, `currentOffset, `records,
               `displayedRecords, `queryLocatorId, `hasMoreRecords, `error
      ensures config == c
      ensures listTitle == ListTitle(c) && pageSize == PageSize(c) && loadingType == LoadingType(c)
      ensures sortFields == DefaultSortFields(c)
      ensures columns == (if |c.fields| > 0 then ConfiguredColumns(c, sortFields) else old(columns))
      ensures request == Some(Request(configName, pageSize, 0, searchTerm, sortFields, None,
                                      parentRecordId, relatedObjectApiName))
      ensures LoadedFrom(fetch, [], 0, None)
      ensures Valid()
    {
      ApplyConfig(c);
      request := LoadRecords(true, fetch);
    }

    /** The try block of loadConfig up to the awaited load: the configuration,
        the settings derived from it, the parsed default sort and the columns. */
    method ApplyConfig(c: Config)
      modifies `config, `listTitle, `pageSize, `loadingType, `sortFields, `columns
      ensures config == c
      ensures listTitle == ListTitle(c) && pageSize == PageSize(c) && loadingType == LoadingType(c)
      ensures sortFields == DefaultSortFields(c)
      ensures columns == (if |c.fields| > 0 then ConfiguredColumns(c, sortFields) else old(columns))
    {
      config := c;
      listTitle := ListTitle(config);
      pageSize := PageSize(config);
      loadingType := LoadingType(config);
      sortFields := DefaultSortFields(config);
      SetupColumns();
    }

    /** The catch block of loadConfig. */
    method ConfigFailure(bodyMessage: string)
      modifies `error, `config, `columns, `listTitle
      ensures error == Some(if bodyMessage != "" then bodyMessage
                            else "Error loading configuration for " + configName)
      ensures config == EmptyConfig && columns == [] && listTitle == "Records"
    {
      error := Some(if bodyMessage != "" then bodyMessage
                    else "Error loading configuration for " + configName);
      config := EmptyConfig;
      columns := [];
      listTitle := "Records";
    }

    /** handleSort for a click on the header of column `fieldName`: nothing
        happens unless a sortable column has that name; otherwise the sort fields
        take the click, the column icons follow them, the expanded cards close
        and a reset load starts. */
    method HandleSort(fieldName: string) returns (request: Option<Request>)
      modifies `sortFields, `columns, `expandedCardIds,
               `isLoading, `isLoadingMore, `isScrollLoading, `currentOffset, `records,
               `displayedRecords, `queryLocatorId, `hasMoreRecords, `error
      ensures !Sortable(old(columns), fieldName) ==>
          && request.None?
          && unchanged(`sortFields, `columns, `expandedCardIds,
                       `isLoading, `isLoadingMore, `isScrollLoading, `currentOffset, `records,
                       `displayedRecords, `queryLocatorId, `hasMoreRecords, `error)
      ensures Sortable(old(columns), fieldName) ==>
          && sortFields == ClickSort(old(sortFields), fieldName, DefaultSortFields(config))
          && columns == WithIcons(old(columns), sortFields)
          && expandedCardIds == {}
          && JustReset() && isLoadingMore == old(isLoadingMore)
          && request == Some(CurrentRequest())
      ensures old(Valid()) ==> Valid()
    {
      var column := FindColumn(columns, fieldName);
      if column.Some? && column.value.sortable {
        // the two resets come after the sort update in the source; they touch
        // other fields, so the order does not matter
        queryLocatorId := None;
        expandedCardIds := {};
        ApplySort(fieldName, DefaultSortFields(config));
        ghost var sorted, iconed, c := sortFields, columns, config;
        request := StartLoad(true);
        assert sortFields == sorted && columns == iconed && config == c;
      } else {
        request := None;
      }
    }

    /** The sort-field update and the icon refresh of handleSort. */
    method ApplySort(fieldName: string, defaults: seq<SortField>)
      modifies `sortFields, `columns
      ensures sortFields == ClickSort(old(sortFields), fieldName, defaults)
      ensures columns == WithIcons(old(columns), sortFields)
    {
      var updated := ClickedSortFields(sortFields, fieldName, defaults);
      sortFields := updated;
      columns := WithIcons(columns, sortFields);
    }

    /** The debounced part of handleSearch: a changed term replaces the search,
        closes the expanded cards and starts a reset load; the same term does
        nothing. */
    method SearchChanged(newSearchTerm: string) returns (request: Option<Request>)
      modifies `searchTerm, `expandedCardIds,
               `isLoading, `isLoadingMore, `isScrollLoading, `currentOffset, `records,
               `displayedRecords, `queryLocatorId, `hasMoreRecords, `error
      ensures old(searchTerm) == newSearchTerm ==>
        && request.None?
        && unchanged(`searchTerm, `expandedCardIds,
                     `isLoading, `isLoadingMore, `isScrollLoading, `currentOffset, `records,
                     `displayedRecords, `queryLocatorId, `hasMoreRecords, `error)
      ensures old(searchTerm) != newSearchTerm ==>
        && searchTerm == newSearchTerm
        && expandedCardIds == {}
        && JustReset() && isLoadingMore == old(isLoadingMore)
        && request == Some(CurrentRequest())
      ensures old(Valid()) ==> Valid()
    {
      if searchTerm != newSearchTerm {
        searchTerm := newSearchTerm;
        queryLocatorId := None;
        expandedCardIds := {};
        request := StartLoad(true);
      } else {
        request := None;
      }
    }

    /** handleRefresh: the expanded cards close and a reset load starts. */
    method HandleRefresh() returns (request: Option<Request>)
      modifies `expandedCardIds,
               `isLoading, `isLoadingMore, `isScrollLoading, `currentOffset, `records,
               `displayedRecords, `queryLocatorId, `hasMoreRecords, `error
      ensures expandedCardIds == {}
      ensures JustReset() && isLoadingMore == old(isLoadingMore)
      ensures request == Some(CurrentRequest())
      ensures Valid()
    {
      expandedCardIds := {};
      queryLocatorId := None;
      request := StartLoad(true);
    }

    /** handleCardExpand for the card of `recordId`: on an expandable list the
        card's id is toggled and every displayed card's flag recomputed. */
    method HandleCardExpand(recordId: string)
      modifies `expandedCardIds, `displayedRecords
      ensures !config.isExpandable ==> unchanged(`expandedCardIds, `displayedRecords)
      ensures config.isExpandable ==>
        && expandedCardIds == Toggled(old(expandedCardIds), recordId)
        && displayedRecords == Reproject(old(displayedRecords), expandedCardIds)
      ensures old(Valid()) ==> Valid()
    {
      if !config.isExpandable {
        return;
      }
      if recordId in expandedCardIds {
        expandedCardIds := expandedCardIds - {recordId};
      } else {
        expandedCardIds := expandedCardIds + {recordId};
      }
      displayedRecords := Reproject(displayedRecords, expandedCardIds);
      if old(Valid()) {
        ReprojectProject(records, old(expandedCardIds), expandedCardIds);
      }
    }

    /** The itemsDisplayText getter: on a consistent list it counts the loaded
        records. */
    function ItemsDisplayText(): (r: string)
      reads `displayedRecords, `hasMoreRecords, `records, `expandedCardIds, `currentOffset
      ensures Valid() ==> r == ItemsText(|records|, hasMoreRecords)
    {
      ItemsText(|displayedRecords|, hasMoreRecords)
    }

    /** The showInfiniteScrollLoader getter: the loader shows only while a
        scroll load is in flight and the item count says more can be loaded. */
    predicate ShowInfiniteScrollLoader(): (r: bool)
      reads `isLoadingMore, `hasMoreRecords, `displayedRecords
      ensures r <==> isLoadingMore && hasMoreRecords
      ensures r ==> ItemsText(|displayedRecords|, hasMoreRecords)[|NatToString(|displayedRecords|)|] == '+'
    {
      ItemsTextMeaning(|displayedRecords|, hasMoreRecords);
      isLoadingMore && hasMoreRecords
    }
  }
}

=== FILE: option.dfy ===
/** The optional value used wherever the component has `undefined` or `null`. */
module Optional {
  datatype Option<T> = None | Some(value: T)

  /** `f` applied to every element, in order. */
  function Map<A, B>(f: A -> B, xs: seq<A>): (r: seq<B>)
    ensures |r| == |xs|
    ensures forall i :: 0 <= i < |xs| ==> r[i] == f(xs[i])
  {
    if xs == [] then [] else [f(xs[0])] + Map(f, xs[1..])
  }

  lemma {:induction false} MapAppend<A, B>(f: A -> B, a: seq<A>, b: seq<A>)
    ensures Map(f, a + b) == Map(f, a) + Map(f, b)
  {
    if a != [] {
      assert (a + b)[0] == a[0] && (a + b)[1..] == a[1..] + b;
      MapAppend(f, a[1..], b);
    } else {
      assert a + b == b;
    }
  }

  /** The present values of a list of options, in order. */
  function Somes<T>(xs: seq<Option<T>>): seq<T>
  {
    if xs == [] then []
    else (if xs[0].Some? then [xs[0].value] else []) + Somes(xs[1..])
  }

  lemma {:induction false} SomesAppend<T>(a: seq<Option<T>>, b: seq<Option<T>>)
    ensures Somes(a + b) == Somes(a) + Somes(b)
  {
    if a != [] {
      assert (a + b)[0] == a[0] && (a + b)[1..] == a[1..] + b;
      SomesAppend(a[1..], b);
    } else {
      assert a + b == b;
    }
  }

  /** Every present value comes from some position of the list. */
  lemma {:induction false} SomesFrom<T>(xs: seq<Option<T>>)
    ensures forall j :: 0 <= j < |Somes(xs)| ==> Some(Somes(xs)[j]) in xs
  {
    if xs != [] {
      SomesFrom(xs[1..]);
      forall j | 0 <= j < |Somes(xs)| ensures Some(Somes(xs)[j]) in xs {
        var k := if xs[0].Some? then 1 else 0;
        if j >= k {
          assert Somes(xs)[j] == Somes(xs[1..])[j - k];
          assert Some(Somes(xs[1..])[j - k]) in xs[1..];
        }
      }
    }
  }
}

=== FILE: sorting.dfy ===
/** Multi-column sort state: parsing the configured sort specification
    (parseSortBy), merging a column click into the sort fields (handleSort) and
    the icon a column shows (getSortIconForField). */
module Sorting {
  import opened Strings
  import opened Optional

  datatype Direction = Asc | Desc

  /** One `{ fieldName, direction }` entry of sortFields. */
  datatype SortField = SortField(fieldName: string, direction: Direction)

  function Flip(d: Direction): (r: Direction)
    ensures r != d
  {
    if d == Asc then Desc else Asc
  }

  // ---------------------------------------------------------------------------
  // parseSortBy

  /** One comma-separated part: its first whitespace-separated word is the field,
      and it sorts descending exactly when a second word reads "desc" in any case. */
  function ParseSortPart(part: string): SortField
  {
    var words := Words(Trim(part));
    var direction := if |words| > 1 then words[1] else "ASC";
    SortField(Trim(words[0]), if Lower(direction) == "desc" then Desc else Asc)
  }

  /** parseSortBy(sortBy): [] for the empty (falsy) string, otherwise one entry per
      comma-separated part. */
  function ParseSortBy(sortBy: string): seq<SortField>
  {
    if sortBy == "" then [] else Map(ParseSortPart, Split(sortBy, ','))
  }

  /** The second whitespace-separated token of a trimmed part, if there is one. */
  function SecondToken(t: string): Option<string>
  {
    var first := TakeWord(t);
    if |first| == |t| then None else Some(TakeWord(TrimStart(t[|first|..])))
  }

  /** What parseSortBy promises: one entry per part, in order; the field name is
      the part's first token, a prefix of the trimmed part that ends at whitespace
      or at its end; the direction is Desc exactly when a second token exists and
      reads "desc" in any letter case. */
  lemma ParseSortByMeaning(sortBy: string)
    ensures sortBy == "" ==> ParseSortBy(sortBy) == []
    ensures sortBy != "" ==> |ParseSortBy(sortBy)| == |Split(sortBy, ',')|
    ensures sortBy != "" ==> forall i :: 0 <= i < |Split(sortBy, ',')| ==>
      var t := Trim(Split(sortBy, ',')[i]);
      var entry := ParseSortBy(sortBy)[i];
      && entry.fieldName <= t
      && (|entry.fieldName| == |t| || IsSpace(t[|entry.fieldName|]))
      && (forall k :: 0 <= k < |entry.fieldName| ==> !IsSpace(entry.fieldName[k]))
      && ',' !in entry.fieldName
      && (entry.direction == Desc <==>
            SecondToken(t).Some? && Lower(SecondToken(t).value) == "desc")
  {
    if sortBy != "" {
      var parts := Split(sortBy, ',');
      SplitPiecesFree(sortBy, ',');
      forall i | 0 <= i < |parts|
        ensures var t := Trim(parts[i]);
          var entry := ParseSortBy(sortBy)[i];
          && entry.fieldName <= t
          && (|entry.fieldName| == |t| || IsSpace(t[|entry.fieldName|]))
          && (forall k :: 0 <= k < |entry.fieldName| ==> !IsSpace(entry.fieldName[k]))
          && ',' !in entry.fieldName
          && (entry.direction == Desc <==>
                SecondToken(t).Some? && Lower(SecondToken(t).value) == "desc")
      {
        PartMeaning(parts[i]);
      }
    }
  }

  lemma PartMeaning(part: string)
    ensures var t := Trim(part);
      var entry := ParseSortPart(part);
      && entry.fieldName == TakeWord(t)
      && (',' !in part ==> ',' !in entry.fieldName)
      && (entry.direction == Desc <==>
            SecondToken(t).Some? && Lower(SecondToken(t).value) == "desc")
  {
    PartFieldName(part);
    PartDirection(part);
    if ',' !in part {
      var t := Trim(part);
      TrimSubsequence(part);
      TakeWordSubsequence(t);
    }
  }

  lemma PartFieldName(part: string)
    ensures ParseSortPart(part).fieldName == TakeWord(Trim(part))
  {
    var w := Words(Trim(part))[0];
    assert w == TakeWord(Trim(part));
    TrimUntrimmed(w);
  }

  lemma PartDirection(part: string)
    ensures var t := Trim(part);
      ParseSortPart(part).direction == Desc <==>
        SecondToken(t).Some? && Lower(SecondToken(t).value) == "desc"
  {
    var t := Trim(part);
    var words := Words(t);
    SecondWord(t);
    if |words| > 1 {
      assert SecondToken(t) == Some(words[1]);
    } else {
      LowerAsc();
      assert SecondToken(t).None? && Lower("ASC") != "desc";
    }
  }

  lemma LowerAsc()
    ensures Lower("ASC") == "asc" && Lower("DESC") == "desc"
  {
    assert Lower("C") == "c";
    assert Lower("SC") == "sc";
    assert Lower("ESC") == "esc";
  }

  lemma TakeWordSubsequence(s: string)
    ensures forall c :: c in TakeWord(s) ==> c in s
  {
    var w := TakeWord(s);
    assert w == s[..|w|];
  }

  lemma TrimSubsequence(s: string)
    ensures forall c :: c in Trim(s) ==> c in s
  {
    var a := TrimStart(s);
    assert forall c :: c in a ==> c in s;
    var b := TrimEnd(a);
    assert forall c :: c in b ==> c in a;
  }

  /** The text of a sort specification with the given entries, in the format the
      configuration uses ("Name ASC,Phone DESC"). */
  function FormatSortBy(fields: seq<SortField>): (r: string)
    ensures fields != [] ==> r != ""
  {
    if fields == [] then ""
    else Join(Map(FormatEntry, fields), ',')
  }

  function FormatEntry(f: SortField): string {
    f.fieldName + " " + (if f.direction == Asc then "ASC" else "DESC")
  }

  /** A field name that survives a round trip through the configured text. */
  predicate PlainName(name: string) {
    name != [] && ',' !in name && forall k :: 0 <= k < |name| ==> !IsSpace(name[k])
  }

  /** parseSortBy reads back every specification written in the configured format. */
  lemma ParseFormatRoundTrip(fields: seq<SortField>)
    requires forall i :: 0 <= i < |fields| ==> PlainName(fields[i].fieldName)
    ensures ParseSortBy(FormatSortBy(fields)) == fields
  {
    if fields != [] {
      var entries := Map(FormatEntry, fields);
      forall i | 0 <= i < |entries| ensures ',' !in entries[i] {
        assert entries[i] == fields[i].fieldName + " " + (if fields[i].direction == Asc then "ASC" else "DESC");
      }
      SplitJoin(entries, ',');
      forall i | 0 <= i < |fields| ensures ParseSortPart(entries[i]) == fields[i] {
        EntryRoundTrip(fields[i]);
      }
    }
  }

  lemma EntryRoundTrip(f: SortField)
    requires PlainName(f.fieldName)
    ensures ParseSortPart(FormatEntry(f)) == f
  {
    var d := if f.direction == Asc then "ASC" else "DESC";
    var e := FormatEntry(f);
    assert e == f.fieldName + " " + d;
    assert e[0] == f.fieldName[0] && e[|e| - 1] == 'C';
    TrimUntrimmed(e);
    TwoWords(f.fieldName, d);
    assert Words(Trim(e)) == [f.fieldName, d];
    TrimUntrimmed(f.fieldName);
    LowerAsc();
  }

  // ---------------------------------------------------------------------------
  // looking entries up

  /** The position of the first entry named `name`, or -1 when none is. */
  function IndexOfField(fields: seq<SortField>, name: string): (r: int)
    ensures -1 <= r < |fields|
    ensures r >= 0 ==> fields[r].fieldName == name
    ensures forall j :: 0 <= j < |fields| && (r < 0 || j < r) ==> fields[j].fieldName != name
  {
    if fields == [] then -1
    else if fields[0].fieldName == name then 0
    else
      var k := IndexOfField(fields[1..], name);
      if k < 0 then -1 else k + 1
  }

  /** The first entry with this field name, if any. */
  function Find(fields: seq<SortField>, name: string): Option<SortField>
  {
    var k := IndexOfField(fields, name);
    if k < 0 then None else Some(fields[k])
  }

  function Names(fields: seq<SortField>): set<string> {
    set i | 0 <= i < |fields| :: fields[i].fieldName
  }

  /** No field name occurs twice. */
  predicate Distinct(fields: seq<SortField>) {
    forall i, j :: 0 <= i < j < |fields| ==> fields[i].fieldName != fields[j].fieldName
  }

  /** getSortIconForField(name): the arrow of the field's entry, null when it has none. */
  function SortIcon(fields: seq<SortField>, name: string): Option<string>
  {
    match Find(fields, name)
    case None => None
    case Some(sf) => Some(if sf.direction == Asc then "utility:arrowup" else "utility:arrowdown")
  }

  /** The icon shows the direction of the first entry for the field, and no icon
      exactly when the field is not sorted on. */
  lemma SortIconMeaning(fields: seq<SortField>, name: string)
    ensures SortIcon(fields, name).None? <==> name !in Names(fields)
    ensures SortIcon(fields, name) == Some("utility:arrowup") <==>
      exists i :: 0 <= i < |fields| && fields[i] == SortField(name, Asc) && IndexOfField(fields, name) == i
    ensures SortIcon(fields, name) == Some("utility:arrowdown") <==>
      exists i :: 0 <= i < |fields| && fields[i] == SortField(name, Desc) && IndexOfField(fields, name) == i
  {
    var k := IndexOfField(fields, name);
    if k >= 0 {
      assert fields[k].fieldName in Names(fields);
    }
  }

  // ---------------------------------------------------------------------------
  // removing repeated field names

  /** The filter of handleSort that keeps an entry only where its name occurs
      first, applied to the entries from position k on. */
  function KeepFirstFrom(fields: seq<SortField>, k: nat): seq<SortField>
    requires k <= |fields|
    decreases |fields| - k
  {
    if k == |fields| then []
    else
      (if IndexOfField(fields, fields[k].fieldName) == k then [fields[k]] else [])
      + KeepFirstFrom(fields, k + 1)
  }

  /** The de-duplication step of handleSort. */
  function KeepFirst(fields: seq<SortField>): seq<SortField> {
    KeepFirstFrom(fields, 0)
  }

  lemma {:induction false} KeepFirstFromFind(fields: seq<SortField>, k: nat, name: string)
    requires k <= |fields|
    ensures var m := IndexOfField(fields, name);
      Find(KeepFirstFrom(fields, k), name) == if k <= m then Some(fields[m]) else None
    decreases |fields| - k
  {
    if k < |fields| {
      KeepFirstFromFind(fields, k + 1, name);
      if IndexOfField(fields, fields[k].fieldName) == k {
        KeptFind(fields, k, name);
      } else {
        DroppedFind(fields, k, name);
      }
    }
  }

  /** The step of KeepFirstFromFind where the entry at k is the first of its name. */
  lemma KeptFind(fields: seq<SortField>, k: nat, name: string)
    requires k < |fields| && IndexOfField(fields, fields[k].fieldName) == k
    requires var m := IndexOfField(fields, name);
      Find(KeepFirstFrom(fields, k + 1), name) == if k + 1 <= m then Some(fields[m]) else None
    ensures var m := IndexOfField(fields, name);
      Find(KeepFirstFrom(fields, k), name) == if k <= m then Some(fields[m]) else None
  {
    var h := fields[k];
    assert KeepFirstFrom(fields, k) == [h] + KeepFirstFrom(fields, k + 1);
    FindCons(h, KeepFirstFrom(fields, k + 1), name);
    assert h.fieldName == name <==> IndexOfField(fields, name) == k;
  }

  /** The step of KeepFirstFromFind where an earlier entry has the name at k. */
  lemma DroppedFind(fields: seq<SortField>, k: nat, name: string)
    requires k < |fields| && IndexOfField(fields, fields[k].fieldName) != k
    requires var m := IndexOfField(fields, name);
      Find(KeepFirstFrom(fields, k + 1), name) == if k + 1 <= m then Some(fields[m]) else None
    ensures var m := IndexOfField(fields, name);
      Find(KeepFirstFrom(fields, k), name) == if k <= m then Some(fields[m]) else None
  {
    assert KeepFirstFrom(fields, k) == KeepFirstFrom(fields, k + 1);
    assert IndexOfField(fields, name) != k;
  }

  lemma FindCons(h: SortField, rest: seq<SortField>, name: string)
    ensures Find([h] + rest, name) == if h.fieldName == name then Some(h) else Find(rest, name)
  {
    assert ([h] + rest)[1..] == rest;
  }

  /** The entries of `out` come in the order their names first occur in `fields`. */
  predicate InFirstOrder(fields: seq<SortField>, out: seq<SortField>) {
    forall i, j :: 0 <= i < j < |out| ==>
      IndexOfField(fields, out[i].fieldName) < IndexOfField(fields, out[j].fieldName)
  }

  lemma {:induction false} KeepFirstFromDistinct(fields: seq<SortField>, k: nat)
    requires k <= |fields|
    ensures Distinct(KeepFirstFrom(fields, k))
    ensures InFirstOrder(fields, KeepFirstFrom(fields, k))
    ensures forall i :: 0 <= i < |KeepFirstFrom(fields, k)| ==>
      IndexOfField(fields, KeepFirstFrom(fields, k)[i].fieldName) >= k
    decreases |fields| - k
  {
    if k < |fields| {
      KeepFirstFromDistinct(fields, k + 1);
      var rest := KeepFirstFrom(fields, k + 1);
      if IndexOfField(fields, fields[k].fieldName) == k {
        assert KeepFirstFrom(fields, k) == [fields[k]] + rest;
        DistinctCons(fields, k, rest);
      } else {
        assert KeepFirstFrom(fields, k) == rest;
      }
    }
  }

  /** The entry at k, first of its name, can go before entries whose names first
      occur after k. */
  lemma DistinctCons(fields: seq<SortField>, k: nat, rest: seq<SortField>)
    requires k < |fields| && IndexOfField(fields, fields[k].fieldName) == k
    requires Distinct(rest) && InFirstOrder(fields, rest)
    requires forall i :: 0 <= i < |rest| ==> IndexOfField(fields, rest[i].fieldName) >= k + 1
    ensures Distinct([fields[k]] + rest)
    ensures InFirstOrder(fields, [fields[k]] + rest)
    ensures forall i :: 0 <= i < |[fields[k]] + rest| ==> IndexOfField(fields, ([fields[k]] + rest)[i].fieldName) >= k
  {
    var s := [fields[k]] + rest;
    forall i | 1 <= i < |s| ensures s[i] == rest[i - 1] && IndexOfField(fields, s[i].fieldName) > k {
    }
  }

  lemma {:induction false} KeepFirstFromOfDistinct(fields: seq<SortField>, k: nat)
    requires k <= |fields|
    requires Distinct(fields)
    ensures KeepFirstFrom(fields, k) == fields[k..]
    decreases |fields| - k
  {
    if k < |fields| {
      KeepFirstFromOfDistinct(fields, k + 1);
      assert IndexOfField(fields, fields[k].fieldName) == k;
      assert fields[k..] == [fields[k]] + fields[k + 1..];
    }
  }

  /** The de-duplication keeps, in order, the first entry of every field name: the
      result has distinct names in the order the names first occur, finds the same
      entry for every name, and leaves a list that is already distinct as it is. */
  lemma KeepFirstMeaning(fields: seq<SortField>)
    ensures Distinct(KeepFirst(fields))
    ensures InFirstOrder(fields, KeepFirst(fields))
    ensures forall name :: Find(KeepFirst(fields), name) == Find(fields, name)
    ensures Distinct(fields) ==> KeepFirst(fields) == fields
  {
    KeepFirstFromDistinct(fields, 0);
    forall name ensures Find(KeepFirst(fields), name) == Find(fields, name) {
      KeepFirstFromFind(fields, 0, name);
    }
    if Distinct(fields) {
      KeepFirstFromOfDistinct(fields, 0);
    }
  }

  // ---------------------------------------------------------------------------
  // handleSort

  /** The direction a newly clicked field gets: the opposite of its direction in
      the configured default sort, or ascending when the default does not name it. */
  function NewDirection(defaults: seq<SortField>, name: string): Direction
  {
    match Find(defaults, name)
    case None => Asc
    case Some(sf) => Flip(sf.direction)
  }

  /** The sort fields after a click on a sortable column `name`; `defaults`
      is the parsed default sort, `parseSortBy(config.sortBy || 'Name ASC')`. */
  function ClickSort(fields: seq<SortField>, name: string, defaults: seq<SortField>): seq<SortField>
  {
    var k := IndexOfField(fields, name);
    var merged :=
      if k >= 0 then fields[k := SortField(name, Flip(fields[k].direction))]
      else fields + [SortField(name, NewDirection(defaults, name))];
    KeepFirst(merged)
  }

  /** The entry a click leaves for the clicked field. */
  function ClickedEntry(fields: seq<SortField>, name: string, defaults: seq<SortField>): SortField
  {
    match Find(fields, name)
    case Some(sf) => SortField(name, Flip(sf.direction))
    case None => SortField(name, NewDirection(defaults, name))
  }

  lemma FindAfterUpdate(fields: seq<SortField>, k: nat, e: SortField, name: string)
    requires k < |fields| && IndexOfField(fields, fields[k].fieldName) == k
    requires e.fieldName == fields[k].fieldName
    ensures Find(fields[k := e], name) ==
      if name == e.fieldName then Some(e) else Find(fields, name)
  {
    var u := fields[k := e];
    var m := IndexOfField(fields, name);
    var m' := IndexOfField(u, name);
    assert forall j :: 0 <= j < |u| && j != k ==> u[j] == fields[j];
    if name == e.fieldName {
      assert u[k].fieldName == name;
      assert forall j :: 0 <= j < k ==> u[j].fieldName != name;
      assert m' == k;
    } else if m >= 0 {
      assert u[m].fieldName == name;
      assert forall j :: 0 <= j < m ==> u[j].fieldName != name;
      assert m' == m;
    } else {
      assert forall j :: 0 <= j < |u| ==> u[j].fieldName != name;
      assert m' < 0;
    }
  }

  lemma FindAfterAppend(fields: seq<SortField>, e: SortField, name: string)
    requires IndexOfField(fields, e.fieldName) < 0
    ensures Find(fields + [e], name) ==
      if name == e.fieldName then Some(e) else Find(fields, name)
  {
    var u := fields + [e];
    var m := IndexOfField(fields, name);
    var m' := IndexOfField(u, name);
    assert forall j :: 0 <= j < |fields| ==> u[j] == fields[j];
    if name == e.fieldName {
      assert u[|fields|].fieldName == name;
      assert forall j :: 0 <= j < |fields| ==> u[j].fieldName != name;
      assert m' == |fields|;
    } else if m >= 0 {
      assert u[m].fieldName == name;
      assert forall j :: 0 <= j < m ==> u[j].fieldName != name;
      assert m' == m;
    } else {
      assert forall j :: 0 <= j < |u| ==> u[j].fieldName != name;
      assert m' < 0;
    }
  }

  /** After a click the sort fields have distinct names, the clicked field has its
      entry (flipped if it was there, new otherwise) and every other field keeps
      the entry it had; the set of sorted fields grows by the clicked one. */
  lemma ClickSortMeaning(fields: seq<SortField>, name: string, defaults: seq<SortField>)
    ensures Distinct(ClickSort(fields, name, defaults))
    ensures Find(ClickSort(fields, name, defaults), name)
      == Some(ClickedEntry(fields, name, defaults))
    ensures forall g :: g != name ==>
      Find(ClickSort(fields, name, defaults), g) == Find(fields, g)
  {
    var k := IndexOfField(fields, name);
    var merged :=
      if k >= 0 then fields[k := SortField(name, Flip(fields[k].direction))]
      else fields + [SortField(name, NewDirection(defaults, name))];
    KeepFirstMeaning(merged);
    forall g ensures Find(merged, g) ==
      if g == name then Some(ClickedEntry(fields, name, defaults)) else Find(fields, g)
    {
      if k >= 0 {
        FindAfterUpdate(fields, k, SortField(name, Flip(fields[k].direction)), g);
      } else {
        FindAfterAppend(fields, SortField(name, NewDirection(defaults, name)), g);
      }
    }
  }

  /** On distinct sort fields a click on a sorted field flips it where it stands,
      and a click on any other field appends it at the end. */
  lemma ClickSortOnDistinct(fields: seq<SortField>, name: string, defaults: seq<SortField>)
    requires Distinct(fields)
    ensures var k := IndexOfField(fields, name);
      k >= 0 ==>
        ClickSort(fields, name, defaults) == fields[k := SortField(name, Flip(fields[k].direction))]
    ensures IndexOfField(fields, name) < 0 ==>
      ClickSort(fields, name, defaults) ==
        fields + [SortField(name, NewDirection(defaults, name))]
  {
    var k := IndexOfField(fields, name);
    if k >= 0 {
      var merged := fields[k := SortField(name, Flip(fields[k].direction))];
      assert Distinct(merged) by {
        forall i, j | 0 <= i < j < |merged| ensures merged[i].fieldName != merged[j].fieldName {
          assert merged[i].fieldName == fields[i].fieldName;
          assert merged[j].fieldName == fields[j].fieldName;
        }
      }
      KeepFirstMeaning(merged);
    } else {
      var merged := fields + [SortField(name, NewDirection(defaults, name))];
      assert Distinct(merged) by {
        forall i, j | 0 <= i < j < |merged| ensures merged[i].fieldName != merged[j].fieldName {
          if j == |fields| {
            assert merged[i] == fields[i];
          } else {
            assert merged[i] == fields[i] && merged[j] == fields[j];
          }
        }
      }
      KeepFirstMeaning(merged);
    }
  }

  /** The de-duplication filter of handleSort, entry by entry. */
  method KeepFirstOf(fields: seq<SortField>) returns (unique: seq<SortField>)
    ensures unique == KeepFirst(fields)
  {
    unique := [];
    var i := 0;
    while i < |fields|
      invariant 0 <= i <= |fields|
      invariant unique + KeepFirstFrom(fields, i) == KeepFirst(fields)
    {
      var keep := if IndexOfField(fields, fields[i].fieldName) == i then [fields[i]] else [];
      assert KeepFirstFrom(fields, i) == keep + KeepFirstFrom(fields, i + 1);
      assert unique + keep + KeepFirstFrom(fields, i + 1) == unique + (keep + KeepFirstFrom(fields, i + 1));
      unique := unique + keep;
      i := i + 1;
    }
    assert unique == unique + KeepFirstFrom(fields, i);
  }

  /** The sort-field update of handleSort for a sortable column `name`: the entry
      flipped in place or a new entry appended, then repeated names dropped. */
  method ClickedSortFields(sortFields: seq<SortField>, name: string, defaults: seq<SortField>)
    returns (unique: seq<SortField>)
    ensures unique == ClickSort(sortFields, name, defaults)
    ensures Distinct(unique)
    ensures Find(unique, name) == Some(ClickedEntry(sortFields, name, defaults))
  {
    var fields := sortFields;
    var existing := IndexOfField(fields, name);
    if existing >= 0 {
      fields := fields[existing := SortField(name, Flip(fields[existing].direction))];
    } else {
      fields := fields + [SortField(name, NewDirection(defaults, name))];
    }
    unique := KeepFirstOf(fields);
    ClickSortMeaning(sortFields, name, defaults);
  }
}

=== FILE: text.dfy ===
/** String helpers with the meaning JavaScript gives the corresponding built-ins
    (String.prototype.split on one character, trim, split(/\s+/), toLowerCase,
    includes, String(n) for an integer). Whitespace and letter case are ASCII only. */
module Strings {

  /** The ASCII part of JavaScript's \s class (and of what trim removes). */
  predicate IsSpace(c: char) {
    c == ' ' || c == '\t' || c == '\n' || c == '\r' || c == '\U{000B}' || c == '\U{000C}'
  }

  predicate IsDigit(c: char) {
    '0' <= c <= '9'
  }

  predicate IsUpper(c: char) {
    'A' <= c <= 'Z'
  }

  predicate IsLowerLetter(c: char) {
    'a' <= c <= 'z'
  }

  /** The \w class of a JavaScript regular expression. */
  predicate IsWordChar(c: char) {
    IsUpper(c) || IsLowerLetter(c) || IsDigit(c) || c == '_'
  }

  function LowerChar(c: char): (r: char)
    ensures !IsUpper(r)
    ensures IsUpper(c) ==> r as int == c as int + 32
    ensures !IsUpper(c) ==> r == c
  {
    if IsUpper(c) then (c as int + 32) as char else c
  }

  function UpperChar(c: char): (r: char)
    ensures !IsLowerLetter(r)
    ensures IsLowerLetter(c) ==> r as int == c as int - 32
    ensures !IsLowerLetter(c) ==> r == c
  {
    if IsLowerLetter(c) then (c as int - 32) as char else c
  }

  /** s.toLowerCase() */
  function Lower(s: string): (r: string)
    ensures |r| == |s|
    ensures forall i :: 0 <= i < |s| ==> r[i] == LowerChar(s[i])
  {
    if s == [] then [] else [LowerChar(s[0])] + Lower(s[1..])
  }

  // ---------------------------------------------------------------------------
  // split on one character, and its inverse

  /** s.split(sep) for a one-character separator: the pieces between separators. */
  function Split(s: string, sep: char): (r: seq<string>)
    ensures |r| >= 1
  {
    if s == [] then [""]
    else if s[0] == sep then [""] + Split(s[1..], sep)
    else var rest := Split(s[1..], sep); [[s[0]] + rest[0]] + rest[1..]
  }

  /** parts.join(sep) */
  function Join(parts: seq<string>, sep: char): string
    requires |parts| >= 1
  {
    if |parts| == 1 then parts[0] else parts[0] + [sep] + Join(parts[1..], sep)
  }

  /** No piece of a split contains the separator. */
  lemma {:induction false} SplitPiecesFree(s: string, sep: char)
    ensures forall i :: 0 <= i < |Split(s, sep)| ==> sep !in Split(s, sep)[i]
  {
    if s != [] {
      SplitPiecesFree(s[1..], sep);
      if s[0] != sep {
        var rest := Split(s[1..], sep);
        assert sep !in rest[0];
        assert Split(s, sep)[0] == [s[0]] + rest[0];
      }
    }
  }

  /** Joining the pieces with the separator gives back the original string. */
  lemma {:induction false} JoinSplit(s: string, sep: char)
    ensures Join(Split(s, sep), sep) == s
  {
    if s != [] {
      JoinSplit(s[1..], sep);
      var rest := Split(s[1..], sep);
      if s[0] != sep {
        var r := Split(s, sep);
        assert r[0] == [s[0]] + rest[0] && r[1..] == rest[1..];
        if |rest| > 1 {
          assert Join(rest, sep) == rest[0] + [sep] + Join(rest[1..], sep);
        }
      }
    }
  }

  /** Splitting a join of separator-free pieces gives back the pieces. */
  lemma {:induction false} SplitJoin(parts: seq<string>, sep: char)
    requires |parts| >= 1
    requires forall i :: 0 <= i < |parts| ==> sep !in parts[i]
    ensures Split(Join(parts, sep), sep) == parts
  {
    if |parts| == 1 {
      SplitNoSeparator(parts[0], sep);
    } else {
      SplitJoin(parts[1..], sep);
      SplitPrefix(parts[0], Join(parts[1..], sep), sep);
    }
  }

  lemma {:induction false} SplitNoSeparator(s: string, sep: char)
    requires sep !in s
    ensures Split(s, sep) == [s]
  {
    if s != [] {
      SplitNoSeparator(s[1..], sep);
      assert [s[0]] + s[1..] == s;
    }
  }

  lemma {:induction false} SplitPrefix(w: string, t: string, sep: char)
    requires sep !in w
    ensures Split(w + [sep] + t, sep) == [w] + Split(t, sep)
  {
    if w != [] {
      assert (w + [sep] + t)[1..] == w[1..] + [sep] + t;
      SplitPrefix(w[1..], t, sep);
      assert [w[0]] + w[1..] == w;
    } else {
      assert (w + [sep] + t)[1..] == t;
    }
  }

  /** A string without the separator splits into itself alone. */
  lemma SplitSingle(s: string, sep: char)
    ensures Split(s, sep) == [s] <==> sep !in s
  {
    if sep !in s {
      SplitNoSeparator(s, sep);
    } else {
      SplitPiecesFree(s, sep);
      assert sep !in Split(s, sep)[0];
      if Split(s, sep) == [s] {
        assert false;
      }
    }
  }

  /** The first piece of a split is the text up to the first separator. */
  lemma {:induction false} SplitFirst(s: string, sep: char)
    ensures Split(s, sep)[0] <= s
    ensures |Split(s, sep)[0]| == |s| || s[|Split(s, sep)[0]|] == sep
  {
    if s != [] && s[0] != sep {
      SplitFirst(s[1..], sep);
      var rest := Split(s[1..], sep);
      assert Split(s, sep)[0] == [s[0]] + rest[0];
    }
  }

  /** The last piece of a split is the text after the last separator. */
  lemma {:induction false} SplitLast(s: string, sep: char)
    ensures var last := Split(s, sep)[|Split(s, sep)| - 1];
      |last| <= |s| && s[|s| - |last|..] == last && (|last| == |s| || s[|s| - |last| - 1] == sep)
  {
    if s != [] {
      SplitLast(s[1..], sep);
      var rest := Split(s[1..], sep);
      var r := Split(s, sep);
      if s[0] == sep {
        assert r == [""] + rest;
        assert r[|r| - 1] == rest[|rest| - 1];
      } else if |rest| > 1 {
        assert r == [[s[0]] + rest[0]] + rest[1..];
        assert r[|r| - 1] == rest[|rest| - 1];
        SplitSingle(s[1..], sep);
        SplitPiecesFree(s[1..], sep);
        assert sep in s[1..] && sep !in rest[|rest| - 1];
      } else {
        assert r == [[s[0]] + rest[0]];
        JoinSplit(s[1..], sep);
        assert rest[0] == s[1..];
        assert [s[0]] + s[1..] == s;
      }
    }
  }

  // ---------------------------------------------------------------------------
  // trim and split(/\s+/)

  function TrimStart(s: string): (r: string)
    ensures r == [] || !IsSpace(r[0])
    ensures |r| <= |s| && r == s[|s| - |r|..]
    ensures forall i :: 0 <= i < |s| - |r| ==> IsSpace(s[i])
  {
    if s != [] && IsSpace(s[0]) then TrimStart(s[1..]) else s
  }

  function TrimEnd(s: string): (r: string)
    ensures r == [] || !IsSpace(r[|r| - 1])
    ensures |r| <= |s| && r == s[..|r|]
    ensures forall i :: |r| <= i < |s| ==> IsSpace(s[i])
  {
    if s != [] && IsSpace(s[|s| - 1]) then TrimEnd(s[..|s| - 1]) else s
  }

  /** s.trim(): the string without its leading and trailing whitespace. */
  function Trim(s: string): (r: string)
    ensures r == [] || (!IsSpace(r[0]) && !IsSpace(r[|r| - 1]))
    ensures |r| <= |s|
  {
    TrimEnd(TrimStart(s))
  }

  /** The longest prefix of s free of whitespace. */
  function TakeWord(s: string): (w: string)
    ensures w <= s
    ensures forall i :: 0 <= i < |w| ==> !IsSpace(w[i])
    ensures |w| == |s| || IsSpace(s[|w|])
  {
    if s == [] || IsSpace(s[0]) then [] else [s[0]] + TakeWord(s[1..])
  }

  /** s.split(/\s+/): the pieces between maximal runs of whitespace. */
  function Words(s: string): (r: seq<string>)
    ensures |r| >= 1
    ensures r[0] == TakeWord(s)
    decreases |s|
  {
    var w := TakeWord(s);
    if |w| == |s| then [w] else [w] + Words(TrimStart(s[|w|..]))
  }

  /** There is a second word exactly when the first stops before the end; it is
      the word after the whitespace that follows the first. */
  lemma SecondWord(s: string)
    ensures var w := TakeWord(s);
      && (|Words(s)| > 1 <==> |w| != |s|)
      && (|w| != |s| ==> Words(s)[1] == TakeWord(TrimStart(s[|w|..])))
  {
  }

  /** A string that neither starts nor ends with whitespace is its own trim. */
  lemma TrimUntrimmed(s: string)
    requires s == [] || (!IsSpace(s[0]) && !IsSpace(s[|s| - 1]))
    ensures Trim(s) == s
  {
  }

  /** The first word of w + t is w when w has no whitespace and t starts with some. */
  lemma {:induction false} TakeWordConcat(w: string, t: string)
    requires forall i :: 0 <= i < |w| ==> !IsSpace(w[i])
    requires t == [] || IsSpace(t[0])
    ensures TakeWord(w + t) == w
  {
    if w != [] {
      assert (w + t)[1..] == w[1..] + t;
      TakeWordConcat(w[1..], t);
    } else {
      assert w + t == t;
    }
  }

  /** A whitespace-free word is split into itself alone. */
  lemma WordsOfWord(w: string)
    requires forall i :: 0 <= i < |w| ==> !IsSpace(w[i])
    ensures Words(w) == [w]
  {
    TakeWordConcat(w, []);
    assert w + [] == w;
  }

  /** One space before a word that does not start with whitespace is dropped. */
  lemma DropOneSpace(d: string)
    requires d != [] && !IsSpace(d[0])
    ensures TrimStart(" " + d) == d
  {
    assert (" " + d)[1..] == d;
  }

  /** A word, one space and a second word split into exactly those two words. */
  lemma {:induction false} TwoWords(w: string, d: string)
    requires forall i :: 0 <= i < |w| ==> !IsSpace(w[i])
    requires d != [] && forall i :: 0 <= i < |d| ==> !IsSpace(d[i])
    ensures Words(w + " " + d) == [w, d]
  {
    var s := w + " " + d;
    assert s == w + (" " + d);
    TakeWordConcat(w, " " + d);
    assert s[|w|..] == " " + d;
    DropOneSpace(d);
    WordsOfWord(d);
  }

  // ---------------------------------------------------------------------------
  // substrings

  /** t occurs in s starting at position i. */
  predicate OccursAt(s: string, t: string, i: int) {
    0 <= i <= |s| - |t| && s[i..i + |t|] == t
  }

  /** s.includes(t) */
  function Contains(s: string, t: string): bool
  {
    if |t| > |s| then false else t <= s || Contains(s[1..], t)
  }

  /** Contains means "t occurs at some position of s". */
  lemma ContainsIff(s: string, t: string)
    ensures Contains(s, t) <==> exists i :: OccursAt(s, t, i)
  {
    if Contains(s, t) {
      ContainsWitness(s, t);
    }
    forall i | OccursAt(s, t, i) ensures Contains(s, t) {
      OccursContains(s, t, i);
    }
  }

  lemma {:induction false} ContainsWitness(s: string, t: string)
    requires Contains(s, t)
    ensures exists i :: OccursAt(s, t, i)
  {
    if t <= s {
      assert OccursAt(s, t, 0);
    } else {
      ContainsWitness(s[1..], t);
      var j :| OccursAt(s[1..], t, j);
      assert s[1..][j..j + |t|] == s[j + 1..j + 1 + |t|];
      assert OccursAt(s, t, j + 1);
    }
  }

  lemma {:induction false} OccursContains(s: string, t: string, i: int)
    requires OccursAt(s, t, i)
    ensures Contains(s, t)
    decreases i
  {
    if i > 0 {
      assert s[1..][i - 1..i - 1 + |t|] == s[i..i + |t|];
      OccursContains(s[1..], t, i - 1);
    } else {
      assert t <= s;
    }
  }

  // ---------------------------------------------------------------------------
  // decimal text of integers

  function DigitChar(d: nat): (c: char)
    requires d < 10
    ensures IsDigit(c)
  {
    ('0' as int + d) as char
  }

  /** String(n) for a natural number: its decimal digits, without leading zeros. */
  function NatToString(n: nat): (r: string)
    ensures |r| >= 1
    ensures forall i :: 0 <= i < |r| ==> IsDigit(r[i])
    ensures r[0] == '0' ==> n == 0
  {
    if n < 10 then [DigitChar(n)] else NatToString(n / 10) + [DigitChar(n % 10)]
  }

  /** String(n) for an integer. */
  function IntToString(n: int): (r: string)
    ensures |r| >= 1
    ensures n >= 0 ==> r == NatToString(n)
    ensures n < 0 ==> r[0] == '-'
  {
    if n >= 0 then NatToString(n) else "-" + NatToString(-n)
  }

  /** The value of a string of decimal digits. */
  function DecimalValue(s: string): nat
    requires forall i :: 0 <= i < |s| ==> IsDigit(s[i])
  {
    if s == [] then 0
    else
      assert IsDigit(s[|s| - 1]);
      DecimalValue(s[..|s| - 1]) * 10 + (s[|s| - 1] as int - '0' as int)
  }

  /** NatToString is inverted by reading the digits back. */
  lemma {:induction false} NatToStringRoundTrip(n: nat)
    ensures DecimalValue(NatToString(n)) == n
  {
    if n >= 10 {
      NatToStringRoundTrip(n / 10);
      var s := NatToString(n);
      assert s[..|s| - 1] == NatToString(n / 10);
    }
  }

  /** Different numbers have different decimal text. */
  lemma NatToStringInjective(m: nat, n: nat)
    requires NatToString(m) == NatToString(n)
    ensures m == n
  {
    NatToStringRoundTrip(m);
    NatToStringRoundTrip(n);
  }

  /** Only the digits of s, in order. */
  function Digits(s: string): (r: string)
    ensures forall i :: 0 <= i < |r| ==> IsDigit(r[i])
    ensures |r| <= |s|
  {
    if s == [] then [] else (if IsDigit(s[0]) then [s[0]] else []) + Digits(s[1..])
  }

  /** A string made only of digits keeps all of them. */
  lemma {:induction false} DigitsOfDigits(s: string)
    requires forall i :: 0 <= i < |s| ==> IsDigit(s[i])
    ensures Digits(s) == s
  {
    if s != [] {
      DigitsOfDigits(s[1..]);
    }
  }

  lemma {:induction false} DigitsAppend(s: string, t: string)
    ensures Digits(s + t) == Digits(s) + Digits(t)
  {
    if s != [] {
      assert (s + t)[1..] == s[1..] + t;
      DigitsAppend(s[1..], t);
    } else {
      assert s + t == t;
    }
  }
}

=== FILE: url.dfy ===
/** Choosing the configuration from the page URL (extractConfigNameFromUrl). */
module Url {
  import opened Strings
  import opened Optional

  /** The record id and related object named by a related-list URL. */
  datatype RelatedIds = RelatedIds(parentRecordId: string, relatedObjectApiName: string)

  /** What extractConfigNameFromUrl assigns: the configuration name, the
      related-list flag and, for a related-list URL, the two ids (which the other
      branch leaves as they were). */
  datatype UrlSelection = UrlSelection(configName: string, isRelatedListView: bool, relatedIds: Option<RelatedIds>)

  const DefaultConfigName := "HCO"
  const RelatedListSegment := "relatedlist"

  /** parts.indexOf(segment): the first position, or -1. */
  function IndexOfSegment(parts: seq<string>, segment: string): (r: int)
    ensures -1 <= r < |parts|
    ensures r >= 0 ==> parts[r] == segment
    ensures forall j :: 0 <= j < |parts| && (r < 0 || j < r) ==> parts[j] != segment
    ensures r < 0 <==> segment !in parts
  {
    if parts == [] then -1
    else if parts[0] == segment then 0
    else
      var k := IndexOfSegment(parts[1..], segment);
      if k < 0 then -1 else k + 1
  }

  /** The text before the first question mark. */
  function BeforeQuery(s: string): string {
    Split(s, '?')[0]
  }

  /** Segment i, or the empty string when there is none. */
  function SegmentOrEmpty(parts: seq<string>, i: int): (r: string)
    ensures 0 <= i < |parts| ==> r == parts[i]
    ensures !(0 <= i < |parts|) ==> r == ""
  {
    if 0 <= i < |parts| then parts[i] else ""
  }

  /** The two segments after the first `relatedlist` segment, the query stripped
      from the second. */
  function RelatedIdsOf(parts: seq<string>): RelatedIds
  {
    var k := IndexOfSegment(parts, RelatedListSegment);
    RelatedIds(SegmentOrEmpty(parts, k + 1), BeforeQuery(SegmentOrEmpty(parts, k + 2)))
  }

  /** The configuration name a URL without a `relatedlist` segment selects. */
  function PageConfigName(url: string): string
  {
    var parts := Split(url, '/');
    var pageName := BeforeQuery(parts[|parts| - 1]);
    if pageName != "" && pageName != "s" then pageName else DefaultConfigName
  }

  /** extractConfigNameFromUrl as it runs. In the related-list branch the call to
      String.isNotBlank throws, because JavaScript's String has no such function,
      and the catch block selects the default configuration; the two ids read
      before the throw stay assigned. */
  function SelectFromUrl(url: string): UrlSelection
  {
    var parts := Split(url, '/');
    if RelatedListSegment in parts then UrlSelection(DefaultConfigName, false, Some(RelatedIdsOf(parts)))
    else UrlSelection(PageConfigName(url), false, None)
  }

  /** The related-list branch as its authors meant it: the related object's
      configuration when both ids are present. */
  function IntendedSelectFromUrl(url: string): UrlSelection
  {
    var parts := Split(url, '/');
    if RelatedListSegment in parts then
      var ids := RelatedIdsOf(parts);
      if ids.parentRecordId != "" && ids.relatedObjectApiName != "" then
        UrlSelection(ids.relatedObjectApiName, true, Some(ids))
      else UrlSelection(DefaultConfigName, false, Some(ids))
    else UrlSelection(PageConfigName(url), false, None)
  }

  /** The page name is the one segment after the last `/`, cut at its first `?`:
      the URL has exactly one such segment, and the component's choice is that
      segment when it is neither empty nor "s", and "HCO" otherwise. */
  lemma PageConfigNameMeaning(url: string)
    ensures exists k, p :: PageNameAt(url, k, p)
    ensures forall k, p :: PageNameAt(url, k, p) ==>
      PageConfigName(url) == if p != "" && p != "s" then p else DefaultConfigName
    ensures '/' !in PageConfigName(url) && '?' !in PageConfigName(url) && PageConfigName(url) != ""
  {
    var parts := Split(url, '/');
    var last := parts[|parts| - 1];
    var pageName := BeforeQuery(last);
    LastSegmentFree(url);
    PageNameLocated(url);
    forall k, p | PageNameAt(url, k, p)
      ensures PageConfigName(url) == if p != "" && p != "s" then p else DefaultConfigName
    {
      PageNameUnique(url, k, p, |url| - |last|, pageName);
    }
  }

  /** The page name holds neither a `/` nor a `?`. */
  lemma LastSegmentFree(url: string)
    ensures var parts := Split(url, '/');
      var pageName := BeforeQuery(parts[|parts| - 1]);
      '/' !in pageName && '?' !in pageName
  {
    var parts := Split(url, '/');
    var last := parts[|parts| - 1];
    var pageName := BeforeQuery(last);
    SplitPiecesFree(url, '/');
    SplitPiecesFree(last, '?');
    SplitFirst(last, '?');
    assert forall c :: c in pageName ==> c in last by {
      assert pageName == last[..|pageName|];
    }
  }

  /** The page name starts right after the last `/` of the URL. */
  lemma PageNameLocated(url: string)
    ensures var parts := Split(url, '/');
      var last := parts[|parts| - 1];
      PageNameAt(url, |url| - |last|, BeforeQuery(last))
  {
    var parts := Split(url, '/');
    var last := parts[|parts| - 1];
    SplitPiecesFree(url, '/');
    SplitLast(url, '/');
    SplitFirst(last, '?');
    SplitPiecesFree(last, '?');
    LastSegmentFree(url);
  }

  /** A URL has one page-name position and one page name. */
  lemma PageNameUnique(url: string, k1: int, p1: string, k2: int, p2: string)
    requires PageNameAt(url, k1, p1) && PageNameAt(url, k2, p2)
    ensures k1 == k2 && p1 == p2
  {
    if k1 != k2 {
      assert false;
    }
    if |p1| != |p2| {
      assert false;
    }
  }

  /** `name` is the segment starting at k, which follows the last `/` of url, up
      to its first `?` or the end. */
  predicate PageNameAt(url: string, k: int, name: string) {
    && 0 <= k <= |url|
    && (k == 0 || url[k - 1] == '/')
    && '/' !in url[k..]
    && name <= url[k..]
    && '?' !in name
    && (|name| == |url| - k || url[k + |name|] == '?')
  }

  /** What the component selects, as it runs: never the related-list view; for a
      URL without a `relatedlist` segment the page name and no ids; for one with
      such a segment the default configuration and the two segments after its
      first occurrence, defaulting to "" and with the query cut from the second. */
  lemma SelectFromUrlMeaning(url: string)
    ensures var sel := SelectFromUrl(url);
      var parts := Split(url, '/');
      && !sel.isRelatedListView
      && (RelatedListSegment !in parts ==> sel.configName == PageConfigName(url) && sel.relatedIds.None?)
      && (RelatedListSegment in parts ==>
            var k := IndexOfSegment(parts, RelatedListSegment);
            && sel.configName == DefaultConfigName
            && sel.relatedIds.Some?
            && parts[k] == RelatedListSegment
            && (forall j :: 0 <= j < k ==> parts[j] != RelatedListSegment)
            && sel.relatedIds.value.parentRecordId == (if k + 1 < |parts| then parts[k + 1] else "")
            && '?' !in sel.relatedIds.value.relatedObjectApiName
            && (k + 2 < |parts| ==>
                  var rel := sel.relatedIds.value.relatedObjectApiName;
                  rel <= parts[k + 2] && (|rel| == |parts[k + 2]| || parts[k + 2][|rel|] == '?'))
            && (k + 2 >= |parts| ==> sel.relatedIds.value.relatedObjectApiName == ""))
  {
    var parts := Split(url, '/');
    if RelatedListSegment in parts {
      var k := IndexOfSegment(parts, RelatedListSegment);
      var second := SegmentOrEmpty(parts, k + 2);
      SplitPiecesFree(second, '?');
      SplitFirst(second, '?');
    }
  }

  /** The intended branch selects the related object's configuration exactly
      when the URL has a `relatedlist` segment followed by two non-empty ids. */
  lemma IntendedSelectMeaning(url: string)
    ensures var sel := IntendedSelectFromUrl(url);
      var parts := Split(url, '/');
      && (sel.isRelatedListView <==>
            RelatedListSegment in parts
            && RelatedIdsOf(parts).parentRecordId != ""
            && RelatedIdsOf(parts).relatedObjectApiName != "")
      && (sel.isRelatedListView ==> sel.configName == RelatedIdsOf(parts).relatedObjectApiName)
      && (!sel.isRelatedListView ==> sel.configName == SelectFromUrl(url).configName)
      && sel.relatedIds == SelectFromUrl(url).relatedIds
  {
  }

  lemma {:induction false} IndexOfSegmentAfter(prefix: seq<string>, rest: seq<string>, segment: string)
    requires segment !in prefix && rest != [] && rest[0] == segment
    ensures IndexOfSegment(prefix + rest, segment) == |prefix|
  {
    if prefix != [] {
      assert (prefix + rest)[1..] == prefix[1..] + rest;
      IndexOfSegmentAfter(prefix[1..], rest, segment);
    } else {
      assert prefix + rest == rest;
    }
  }

  /** The segments of a related-list path, read back. */
  lemma RelatedIdsOfPath(prefix: seq<string>, parentId: string, objectName: string)
    requires RelatedListSegment !in prefix
    requires '?' !in objectName
    ensures var parts := prefix + [RelatedListSegment, parentId, objectName];
      && RelatedListSegment in parts
      && RelatedIdsOf(parts) == RelatedIds(parentId, objectName)
  {
    var parts := prefix + [RelatedListSegment, parentId, objectName];
    IndexOfSegmentAfter(prefix, [RelatedListSegment, parentId, objectName], RelatedListSegment);
    assert parts[|prefix|] == RelatedListSegment;
    assert parts[|prefix| + 1] == parentId && parts[|prefix| + 2] == objectName;
    SplitNoSeparator(objectName, '?');
  }

  /** The two differ on every related-list URL whose two ids are present, such as
      "/s/relatedlist/001A/Contact": the component shows the default list there
      instead of the related object's. */
  lemma RelatedListUrlFallsBack(prefix: seq<string>, parentId: string, objectName: string)
    requires RelatedListSegment !in prefix
    requires forall x :: x in prefix ==> '/' !in x
    requires parentId != "" && '/' !in parentId
    requires objectName != "" && '/' !in objectName && '?' !in objectName
    ensures var url := Join(prefix + [RelatedListSegment, parentId, objectName], '/');
      && SelectFromUrl(url) == UrlSelection(DefaultConfigName, false, Some(RelatedIds(parentId, objectName)))
      && IntendedSelectFromUrl(url) == UrlSelection(objectName, true, Some(RelatedIds(parentId, objectName)))
  {
    var parts := prefix + [RelatedListSegment, parentId, objectName];
    var url := Join(parts, '/');
    assert Split(url, '/') == parts by {
      forall i | 0 <= i < |parts| ensures '/' !in parts[i] {
        if i < |prefix| { assert parts[i] in prefix; }
      }
      SplitJoin(parts, '/');
    }
    RelatedIdsOfPath(prefix, parentId, objectName);
  }
}
